=== FILE: README.md ===
# workout-tracker in Dafny

A model of the core of the workout-tracker library in Dafny:

- **Measurements.** The unit catalogue, the free-text quantity reader, the `Distance` and `Weight` classes, and their SI conversion, equality and text form (`src/workout_tracker/measurement.py`).
- **Exercises.** The recursive `Exercise` dataclass (`src/workout_tracker/exercise.py`). This covers:
  - construction-time validation and naming (`__post_init__`);
  - the one-line rendering (`__str__`);
  - `to_dict`, and `from_dict`, which reads the dictionary back.

Modules, one per file:

| file | module | models |
|---|---|---|
| wrappers.dfy | `Wrappers`, `Errors` | `Option`/`Result`, and the exceptions raised (`ValueError` with its message, `UnknownUnitError`, `KeyError`, `TypeError`, `ZeroDivisionError`) |
| text.dfy | `Text` | ASCII character classes, `str.split`/`strip`, `string.capwords`, decimal numerals |
| decimal.dfy | `Decimals` | exact decimal values, the number literals `\d+\.?\d*`, and plain decimal rendering |
| units.dfy | `Units` | `DistanceUnit`, `WeightUnit`, `UNIT_CONVERSIONS`, `Unit.to_si`/`from_si` |
| quantity.dfy | `Quantity` | `get_value_and_unit` and its two `re.findall` scans |
| measurement.dfy | `Measurements` | `Measurement`, `Distance`, `Weight` |
| exercise.dfy | `Exercises` | `to_str`, `Exercise`, `timedelta` text, `to_dict`/`from_dict` |

Modelling choices:

- **Numbers.** A measurement's value is an exact decimal: a mantissa and the count of digits after the point. It is rendered in plain decimal notation ("24", "1.6", "0.05"). SI values are exact reals.
- **Duration.** A whole number of seconds. `str(timedelta)` is written out ("0:00:30", "1 day, 1:01:01").
- **The duration parser.** The library delegates parsing to `pytimeparse.parse`; here it is a function parameter. When it returns no value, `from_dict` fails with `TypeError`, as `timedelta(seconds=None)` does.
- **Dictionaries.** A dictionary is a record with one optional entry per key. "sub_exercises" is `Absent` or `Present(list)`.
- **Unit membership.** Membership in a unit enumeration (the `better_enum.py` metaclass hook) is exact, case-sensitive membership in its set of values.
- **Catalogue size.** The catalogue has ten symbols, seven for distance and three for weight.

## Model

| member | source | states |
|---|---|---|
| Units.CatalogueShape | src/workout_tracker/measurement.py:45-80 | The distance and weight symbol sets are disjoint and hold 7 and 3 symbols. The factor table covers exactly their union. Every factor is positive, and each category's SI unit has factor 1. |
| Units.CategoryUnique | src/workout_tracker/measurement.py:59-80 | A symbol belongs to at most one of the two enumerations. |
| Units.Unit.ToSi | src/workout_tracker/measurement.py:104-114 | The SI unit (factor 1) leaves a value unchanged. A positive factor keeps its sign and keeps zero at zero. |
| Units.Unit.FromSi | src/workout_tracker/measurement.py:92-102 | Fails with `ZeroDivisionError` exactly when the factor is zero. Otherwise the result times the factor is the input. |
| Units.UnitFor | src/workout_tracker/measurement.py:126 | The `Unit` built for a known symbol keeps the symbol as its name, and its factor is the symbol's entry in the conversion table, which is positive. |
| Units.ConversionRoundTrip | src/workout_tracker/measurement.py:92-114 | For any non-zero factor, `from_si` undoes `to_si` and `to_si` undoes `from_si`. |
| Units.ConversionExamples | tests/test_measurement.py:65-71 | With factor 4: 1 → 4, 1.3 → 5.2, and back 1 → 0.25, 4.4 → 1.1. |
| Decimals.Render | src/workout_tracker/measurement.py:135 | `str(value)` starts with a minus sign exactly when the value is negative, and the magnitude's digits follow it. |
| Decimals.ParseLiteral | src/workout_tracker/measurement.py:38 | `float` of a matched literal is never negative; its value is given by the three lemmas below. |
| Decimals.WholeRoundTrip | src/workout_tracker/measurement.py:29-38 | A run of digits is a literal whose value is the number those digits spell ("24" → 24). |
| Decimals.FractionRoundTrip | src/workout_tracker/measurement.py:29-38 | Digits, a point and any digits form a literal whose value is all the digits over ten to the count after the point ("1.60" → 160 / 10²). |
| Decimals.TrailingPoint | src/workout_tracker/measurement.py:29-38 | A literal ending in a point reads as its whole digits ("5." → 5). |
| Decimals.RenderRoundTrip | src/workout_tracker/measurement.py:29-38 | The text of a non-negative value is a number literal, and it reads back as the same value digit for digit. |
| Quantity.NumberTokens | src/workout_tracker/measurement.py:29 | Every match of the number pattern is a literal of the form digits, optional point, digits. |
| Quantity.NumberTokensKeepDigits | src/workout_tracker/measurement.py:29 | The number matches together contain every digit of the text, in order. |
| Quantity.NumberMatch | src/workout_tracker/measurement.py:29 | The match at a digit is a literal that starts the text and cannot be extended: no digit follows it, and a point follows only if it already holds one. |
| Quantity.NumberTokensCount | src/workout_tracker/measurement.py:29 | The scan finds exactly as many literals as a character-by-character reading counts: one per digit met outside a match, where a match runs over digits, at most one point, then digits. |
| Quantity.NumberMatchCount | src/workout_tracker/measurement.py:29 | The greedy match at a digit counts as one match, and counting goes on after it as outside any match. |
| Quantity.WordTokens | src/workout_tracker/measurement.py:31 | Every match of the word pattern is a non-empty run of letters and underscores. |
| Quantity.WordTokensCount | src/workout_tracker/measurement.py:31 | The scan finds exactly one word per letter or underscore that does not follow another one. |
| Quantity.WordTokensKeepLetters | src/workout_tracker/measurement.py:31 | The word matches are exactly the letters and underscores of the text, in order. |
| Quantity.GetValueAndUnit | src/workout_tracker/measurement.py:11-38 | Text without digits fails the number count. A success carries a catalogue symbol and a non-negative value. An unknown-unit failure names a symbol outside the catalogue. |
| Quantity.QuantityTextParses | src/workout_tracker/measurement.py:29-38 | A literal and a word, in either order and with any spacing, read as that value and word if the word is a catalogue symbol ("150lb", "mile 1.6", "ft3.2"). Otherwise they fail with `UnknownUnitError` naming the word ("200 NotAUnit"). |
| Quantity.TwoNumbersFail | src/workout_tracker/measurement.py:29-30 | Two literals separated by a non-empty text without digits that does not start with a point, with no digit before the first literal, fail the number count whatever follows the second ("100 lb 2"); a gap starting with a point is excluded because "1.2" reads as one literal. |
| Quantity.CountedFailures | src/workout_tracker/measurement.py:29-32 | Any number of matches other than one fails on the number, wherever the matches lie. With one number, any word count other than one fails on the unit. A success has exactly one of each. |
| Quantity.WordsAroundNumberFail | src/workout_tracker/measurement.py:31-32 | "kg 10 m" fails the unit count. |
| Quantity.WordsBeforeNumberFail | src/workout_tracker/measurement.py:31-32 | "kg m 10" fails the unit count. |
| Quantity.PointRunsFail | src/workout_tracker/measurement.py:29-30 | "1..2 m" holds two number matches ("1." and "2") and fails the number count. |
| Quantity.TwoWordsFail | src/workout_tracker/measurement.py:31-32 | A literal followed by two words fails the unit count ("10 kg m"). Around them there may be only characters that are not digits, letters, underscores or points, and the words must be separated. |
| Quantity.NoWordFails | src/workout_tracker/measurement.py:31-32 | A literal with no word fails the unit count. |
| Measurements.New | src/workout_tracker/measurement.py:186-222 | `Distance`/`Weight` succeed exactly when the unit belongs to the class's own enumeration. Otherwise they raise `UnknownUnitError` naming the unit, and this includes a unit of the other class. |
| Measurements.SiValue | src/workout_tracker/measurement.py:155-163 | The SI value is the value times the unit's catalogue factor. A value in the SI unit is unchanged. Conversion keeps the sign and zero. |
| Measurements.Equal | src/workout_tracker/measurement.py:137-153 | Two measurements are equal exactly when they are of the same class and have the same SI value. For the same unit, equality is equality of values. |
| Measurements.EqualByConversion | src/workout_tracker/measurement.py:137-163 | Within one class, a equals b exactly when `from_si` in b's unit turns a's SI value into b's value. |
| Measurements.EqualIsEquivalence | src/workout_tracker/measurement.py:137-153 | Equality is reflexive, symmetric and transitive. |
| Measurements.DistanceNeverWeight | src/workout_tracker/measurement.py:148-149 | A distance never equals a weight, in either order. |
| Measurements.SiExamples | tests/test_measurement.py:99-128 | 2 ft is 0.6096 m, and 2 pood is 32 kg. |
| Measurements.MetreIsHundredCentimetres | src/workout_tracker/measurement.py:151-153 | 1 m equals 100 cm, and 1 m converted to centimetres is 100. |
| Measurements.KilometreIsThousandMetres | src/workout_tracker/measurement.py:151-153 | 1 km equals 1000 m. |
| Measurements.MetreIsNotFoot | src/workout_tracker/measurement.py:151-153 | 1 m does not equal 1 ft. |
| Measurements.Render | src/workout_tracker/measurement.py:128-135 | The text ends with one space and the unit symbol as given, with no conversion to SI. |
| Measurements.FromStr | src/workout_tracker/measurement.py:165-178 | `from_str` succeeds exactly when the quantity reader succeeds with a symbol of the class's own enumeration. A success holds the value and the unit symbol the reader found. Reader failures pass through unchanged, and a symbol of the other class raises `UnknownUnitError`. |
| Measurements.FromStrRender | src/workout_tracker/measurement.py:128-178 | `from_str(str(m))` gives back `m` (same class, value and unit) for a non-negative value. |
| Measurements.FromStrDropsSign | src/workout_tracker/measurement.py:29-38 | The number pattern reads no sign, so a negative measurement's text reads back as its magnitude. |
| Measurements.WrongCategoryFails | src/workout_tracker/measurement.py:219-220 | A well-formed quantity whose symbol belongs to the other class fails with `UnknownUnitError`. |
| Measurements.WeightOfMetresFails | src/workout_tracker/measurement.py:177-178 | `Weight.from_str("5 m")` fails with `UnknownUnitError("m")`. |
| Exercises.RepsText | src/workout_tracker/exercise.py:14-25 | `to_str(reps)` is empty exactly when the count is `None` or 0. |
| Exercises.DurationText | src/workout_tracker/exercise.py:14-25 | `to_str(duration)` is empty exactly when the duration is `None` or zero. |
| Exercises.MeasurementText | src/workout_tracker/exercise.py:14-25 | `to_str(measurement)` is empty exactly when there is none; a measurement is always truthy. |
| Exercises.RenderDuration | src/workout_tracker/exercise.py:131 | `str(timedelta)` ends in `:MM:SS` with the minute and second of the duration. Under a day, the text is the hour count followed by that tail. |
| Exercises.HalfMinuteText | tests/test_exercise.py:208-212 | 30 seconds print as "0:00:30". |
| Exercises.DayText | src/workout_tracker/exercise.py:131 | 90061 seconds print as "1 day, 1:01:01". |
| Exercises.NonEmpty | src/workout_tracker/exercise.py:146-157 | `filter(None, parts)` keeps only non-empty parts. It is empty exactly when all parts are, and it starts with the first part when that part is non-empty. A single part is kept exactly when it is non-empty. |
| Exercises.NonEmptyAppend | src/workout_tracker/exercise.py:146-157 | Filtering two lists joined together is filtering each one and joining the results. |
| Exercises.Render | src/workout_tracker/exercise.py:138-158 | `str(e)` is empty exactly when all six parts are empty. |
| Exercises.RenderWords | src/workout_tracker/exercise.py:138-158 | The words of `str(e)` are the words of the duration, count, distance, name, weight and height texts, in that order. |
| Exercises.RenderActive | src/workout_tracker/exercise.py:138-158 | An exercise with reps, a duration or a distance renders to non-empty text. |
| Exercises.ComplexName | src/workout_tracker/exercise.py:54 | No members give "". One member gives that member's text. |
| Exercises.ComplexNameCons | src/workout_tracker/exercise.py:54 | With more than one member, the name is the first member's text, " + ", then the name the other members give. |
| Exercises.MemberRender | src/workout_tracker/exercise.py:54 | A member of a complex renders as its count and its name ("3 Clean"). |
| Exercises.BoxJumpText | tests/test_exercise.py:186-192 | Renders "5 Box Jump 24 in": count, then name, then height. |
| Exercises.HandstandText | tests/test_exercise.py:208-212 | Renders "0:00:30 Handstand Hold": the duration comes first. |
| Exercises.Make | src/workout_tracker/exercise.py:42-68 | Every node needs truthy reps, duration or distance, or it raises that `ValueError`; this check comes first. A complex, even with an empty list, takes the " + "-join of its members' texts and raises the other `ValueError` if a member has a weight, distance, height, truthy duration or non-empty members. A single exercise gets `capwords(strip(name))`. The other fields are kept. |
| Exercises.MakeValid | src/workout_tracker/exercise.py:42-68 | Every exercise the constructor returns from valid members satisfies `Valid`. |
| Exercises.MakeFixed | src/workout_tracker/exercise.py:42-68 | Constructing a valid exercise again from its own fields gives it back unchanged. |
| Exercises.MakeIdempotent | src/workout_tracker/exercise.py:67-68 | Reconstructing a constructed exercise changes nothing: the canonical name is a fixed point. |
| Exercises.MembersHaveReps | src/workout_tracker/exercise.py:50-61 | Every member of a valid complex has a non-zero count. |
| Exercises.ComplexNameNonEmpty | src/workout_tracker/exercise.py:54 | A valid complex with members has a non-empty name. |
| Exercises.BackSquatExample | tests/test_exercise.py:30-34 | "back squat" is named "Back Squat". |
| Exercises.CleanAndJerkExample | tests/test_exercise.py:44-54 | A complex given the name "Clean & Jerk" with members 3 Clean and 1 Jerk is named "3 Clean + 1 Jerk". |
| Exercises.ToDict | src/workout_tracker/exercise.py:114-136 | No present key holds a falsy value, recursively. Each key is present exactly when its field is truthy, and the member list keeps its length. A present "name" holds the exercise's name as it is, "reps" holds the count, and the weight, duration, distance and height entries hold their `to_str` texts. |
| Exercises.ReadMeasurement | src/workout_tracker/exercise.py:82-97 | A missing entry gives no measurement. A present one is `from_str` of the class, whose failure passes through. |
| Exercises.ReadDuration | src/workout_tracker/exercise.py:86-89 | A missing entry gives no duration. An unparsable one raises `TypeError`, and otherwise the parsed seconds are used. |
| Exercises.ReadMembers | src/workout_tracker/exercise.py:98-102 | A missing list gives a single exercise. A present one gives a complex with one valid member per dictionary. |
| Exercises.FromDicts | src/workout_tracker/exercise.py:99-102 | Reading a list of dictionaries gives one valid exercise per dictionary. |
| Exercises.FromDict | src/workout_tracker/exercise.py:70-112 | Every exercise read is valid, and its dictionary had a name. An unreadable weight fails first, with the weight's error. |
| Exercises.FieldsRoundTrip | src/workout_tracker/exercise.py:82-97 | Weight, duration, distance, height and reps entries written by `to_dict` read back as the fields. |
| Exercises.DictRoundTrip | tests/test_exercise.py:131-181 | `from_dict(to_dict(e)) == e` for every valid exercise, complexes included. Requirements: non-empty name, no zero count or duration, non-negative measurements of the declared class, members present, and a duration parser that reads `str(timedelta)` back. |
| Exercises.MembersRoundTrip | src/workout_tracker/exercise.py:98-102 | A list of dictionaries that each read back as an exercise reads back as the list of those exercises, in order. |
| Exercises.MembersReadBack | src/workout_tracker/exercise.py:98-102 | The member list `to_dict` writes for a valid, surviving complex reads back as the same members. |
| Exercises.ToDicts | src/workout_tracker/exercise.py:121-125 | There is one dictionary per member, and none of them holds a falsy value. |
| Exercises.ToDictsIndex | src/workout_tracker/exercise.py:123-125 | The dictionary at each position is the dictionary of the member at that position. |
| Exercises.RepsZeroReadsAsUnset | src/workout_tracker/exercise.py:136 | A count of 0 is dropped by `to_dict` and reads back as no count. |
| Exercises.EmptyNameFails | src/workout_tracker/exercise.py:104-105 | A single exercise whose name is empty after construction does not round trip: reading back raises `KeyError("name")`. |
| Exercises.EmptyComplexFails | src/workout_tracker/exercise.py:53-54 | A complex with an empty member list is named "" and reading its dictionary back raises `KeyError("name")`. |
| Text.CapWordsStripIdempotent | src/workout_tracker/exercise.py:68 | `capwords(strip(capwords(strip(s)))) == capwords(strip(s))`. |
| Text.CapWordsOfWords | src/workout_tracker/exercise.py:68 | Single-space-separated words are capitalised one by one and keep their separation. |
| Text.SplitJoin | src/workout_tracker/exercise.py:68 | `str.split` undoes a single-space join of words. |
| Text.SplitSpaced | src/workout_tracker/exercise.py:146 | The words of `a + " " + b` are the words of `a` followed by the words of `b`. |
| Text.SplitJoinSpaced | src/workout_tracker/exercise.py:146 | The words of a single-space join of texts are the words of each text, in order. |

## Left out

- Floating point: IEEE rounding of `value * in_si` and `value / in_si`, and `str(float)` formatting ("150.0", exponent forms). Values are exact decimals rendered in plain decimal notation, and SI values are exact reals.
- Non-ASCII text: `\d`, `[^\d\W]` and `str.isspace` are modelled on ASCII only. Unicode digits, letters and spaces are not modelled.
- `pytimeparse.parse` is a function parameter. The round trip requires that it read back every text `str(timedelta)` produces for a non-zero duration.
- Exercises.RenderDuration: covers whole non-negative seconds only. Negative durations and microseconds of `timedelta` are not modelled.
- Exercises.Make: the name is a string. A `None` name on a single exercise (an `AttributeError` in `strip`) is not modelled.
- Fields of a wrong Python type (a `Distance` passed as weight, a non-integer count) are not representable, except that measurements carry their class. `Readable` states which measurements survive the round trip.
- Exercises.DictRoundTrip: proves structural equality, which implies the dataclass equality. The dataclass compares measurements by SI value.
- Dictionary keys outside the seven known ones are not representable. A key present with value `None` is the same as a missing key, as `from_dict`'s `defaultdict` makes it for all keys but "name".
- A "name" key present with value `None` cannot be represented: it reads as a missing key, so `from_dict` fails with `KeyError("name")`. Python accepts it for a complex exercise, whose name is replaced by its members' joined renderings (src/workout_tracker/exercise.py:53-54, 105).
- The abstract `Measurement.__init__` (with `si_unit` "Undefined") is not modelled, since only `Distance` and `Weight` are instantiated.
- The `repr` expectations in tests/test_measurement.py are not modelled: `measurement.py` defines no `__repr__`.
- `src/workout_tracker/workout.py` holds data declarations without behaviour and is not part of this model.

=== FILE: decimal.dfy ===
/** Exact decimal numbers standing in for the library's floats: the literals
    the tokenizer reads (`\d+\.?\d*`) and the plain decimal text a value is
    rendered as. */
module Decimals {
  import opened Text

  /** The number `mantissa / 10^scale`; `scale` is the count of digits after the point. */
  datatype Decimal = Decimal(mantissa: int, scale: nat)

  /** The value a decimal denotes: the mantissa divided by ten, `scale` times. */
  function ToReal(d: Decimal): real
    decreases d.scale
  {
    if d.scale == 0 then d.mantissa as real else ToReal(Decimal(d.mantissa, d.scale - 1)) / 10.0
  }

  /** The leading run of digits of `s`. */
  function DigitRun(s: string): (r: string)
    ensures |r| <= |s| && r == s[..|r|] && AllDigits(r)
    ensures |r| < |s| ==> !IsDigit(s[|r|])
  {
    if s != [] && IsDigit(s[0]) then [s[0]] + DigitRun(s[1..]) else []
  }

  /** A whole match of `\d+\.?\d*`: digits, then optionally a point and more digits. */
  predicate IsNumberLiteral(t: string) {
    var k := |DigitRun(t)|;
    k >= 1 && (k == |t| || (t[k] == '.' && AllDigits(t[k + 1..])))
  }

  /** `float(t)` for a literal, kept exact: the digits around the point form the
      mantissa, the digits after it the scale ("1.60" is 160 / 10^2). */
  function ParseLiteral(t: string): (d: Decimal)
    requires IsNumberLiteral(t)
    ensures d.mantissa >= 0
  {
    var k := |DigitRun(t)|;
    if k == |t| then
      Decimal(DigitsValue(t), 0)
    else
      assert AllDigits(t[..k] + t[k + 1..]) by {
        assert t[..k] == DigitRun(t);
      }
      Decimal(DigitsValue(t[..k] + t[k + 1..]), |t| - k - 1)
  }

  /** The digits of `m`, padded with zeros to at least `width` characters. */
  function PaddedDigits(m: nat, width: nat): (ds: string)
    ensures |ds| >= width && |ds| >= 1 && AllDigits(ds)
    ensures DigitsValue(ds) == m
  {
    var digits := NatToDigits(m);
    if |digits| < width then
      LeadingZeros(width - |digits|, digits);
      Zeros(width - |digits|) + digits
    else
      digits
  }

  /** Plain decimal text of a non-negative decimal: all of its digits, with the
      point before the last `scale` of them ("24", "1.6", "0.05"). */
  function RenderUnsigned(m: nat, scale: nat): string {
    var ds := PaddedDigits(m, scale + 1);
    if scale == 0 then ds else ds[..|ds| - scale] + "." + ds[|ds| - scale..]
  }

  /** The text `str(value)` gives, as plain decimal notation: a minus sign for a
      negative value, then the digits of the magnitude. */
  function Render(d: Decimal): (s: string)
    ensures |s| >= 1
    ensures s[0] == '-' <==> d.mantissa < 0
    ensures d.mantissa < 0 ==> s[1..] == RenderUnsigned(-d.mantissa, d.scale)
  {
    if d.mantissa < 0 then
      "-" + RenderUnsigned(-d.mantissa, d.scale)
    else
      var s := RenderUnsigned(d.mantissa, d.scale);
      assert s[0] == PaddedDigits(d.mantissa, d.scale + 1)[0];
      s
  }

  /** Rendering a non-negative decimal gives a literal the tokenizer reads back
      as the same decimal, digit for digit. */
  lemma RenderUnsignedRoundTrip(m: nat, scale: nat)
    ensures IsNumberLiteral(RenderUnsigned(m, scale))
    ensures ParseLiteral(RenderUnsigned(m, scale)) == Decimal(m, scale)
  {
    var ds := PaddedDigits(m, scale + 1);
    if scale == 0 {
      WholeRoundTrip(ds);
    } else {
      var k := |ds| - scale;
      assert ds == ds[..k] + ds[k..];
      FractionRoundTrip(ds[..k], ds[k..]);
    }
  }

  /** A run of digits is a literal that reads back as its own value. */
  lemma WholeRoundTrip(ds: string)
    requires |ds| >= 1 && AllDigits(ds)
    ensures IsNumberLiteral(ds) && ParseLiteral(ds) == Decimal(DigitsValue(ds), 0)
  {
    DigitRunAll(ds, []);
    assert ds + [] == ds;
  }

  /** Digits, a point and possibly more digits form a literal whose mantissa is
      all the digits and whose scale is the count after the point. */
  lemma FractionRoundTrip(whole: string, frac: string)
    requires |whole| >= 1 && AllDigits(whole) && AllDigits(frac)
    ensures IsNumberLiteral(whole + "." + frac)
    ensures ParseLiteral(whole + "." + frac) == Decimal(DigitsValue(whole + frac), |frac|)
  {
    var t := whole + "." + frac;
    var rest := "." + frac;
    assert t == whole + rest;
    DigitRunAll(whole, rest);
    var k := |whole|;
    assert t[k] == '.';
    assert t[..k] == whole;
    assert t[k + 1..] == frac;
  }

  /** A literal ending in a point ("5.") reads as its digits, with nothing after the point. */
  lemma TrailingPoint(whole: string)
    requires |whole| >= 1 && AllDigits(whole)
    ensures IsNumberLiteral(whole + ".")
    ensures ParseLiteral(whole + ".") == Decimal(DigitsValue(whole), 0)
  {
    FractionRoundTrip(whole, []);
    assert whole + "." + [] == whole + ".";
    assert whole + [] == whole;
  }

  lemma RenderRoundTrip(d: Decimal)
    requires d.mantissa >= 0
    ensures IsNumberLiteral(Render(d))
    ensures ParseLiteral(Render(d)) == d
  {
    RenderUnsignedRoundTrip(d.mantissa, d.scale);
  }

  /** The digit run of a digit string followed by a non-digit is that string. */
  lemma {:induction false} DigitRunAll(ds: string, rest: string)
    requires AllDigits(ds)
    requires rest == [] || !IsDigit(rest[0])
    ensures DigitRun(ds + rest) == ds
  {
    if ds != [] {
      assert (ds + rest)[1..] == ds[1..] + rest;
      DigitRunAll(ds[1..], rest);
    }
  }

  /** Digits, optionally followed by a point and more digits, form a literal. */
  lemma LiteralShapes(whole: string, frac: string)
    requires |whole| >= 1 && AllDigits(whole) && AllDigits(frac)
    ensures IsNumberLiteral(whole)
    ensures IsNumberLiteral(whole + "." + frac)
  {
    DigitRunAll(whole, []);
    assert whole + [] == whole;
    var t := whole + "." + frac;
    assert t == whole + ("." + frac);
    DigitRunAll(whole, "." + frac);
    assert t[|whole| + 1..] == frac;
  }

  /** A whole number prints without a point. */
  lemma WholeText()
    ensures Render(Decimal(24, 0)) == "24"
  {
  }

  /** The scale places the point: 16 at scale 1 is "1.6". */
  lemma FractionText()
    ensures Render(Decimal(16, 1)) == "1.6"
  {
  }

  /** Leading zeros pad the digits so that there is one before the point. */
  lemma PaddedText()
    ensures Render(Decimal(5, 2)) == "0.05"
  {
  }

  /** A negative value prints with a minus sign. */
  lemma NegativeText()
    ensures Render(Decimal(-25, 1)) == "-2.5"
  {
  }
}

=== FILE: exercise.dfy ===
/** The `Exercise` dataclass of `exercise.py`: a possibly composite exercise
    with its construction-time validation and naming, its one-line rendering,
    and its dictionary form with the reader that undoes it. */
module Exercises {
  import opened Wrappers
  import opened Errors
  import opened Text
  import opened Decimals
  import opened Units
  import opened Measurements

  /** An exercise after `__post_init__`. `duration` is a whole number of
      seconds. */
  datatype Exercise = Exercise(
    name: string,
    reps: Option<int>,
    weight: Option<Measurement>,
    duration: Option<nat>,
    distance: Option<Measurement>,
    height: Option<Measurement>,
    subExercises: Members)

  /** `sub_exercises`: `None` for a single exercise, a list for a complex such
      as a clean and jerk, even when the list is empty. */
  datatype Members = Single | Complex(members: seq<Exercise>)

  // ---------------------------------------------------------------------------
  // Truthiness
  // ---------------------------------------------------------------------------

  /** Python truthiness of the optional fields: `None`, `0`, a zero
      `timedelta` and an empty list are false. A measurement defines no
      `__bool__`, so any measurement is true. */
  predicate RepsSet(reps: Option<int>) {
    reps.Some? && reps.value != 0
  }

  predicate DurationSet(duration: Option<nat>) {
    duration.Some? && duration.value != 0
  }

  predicate SubsSet(subs: Members) {
    subs.Complex? && |subs.members| > 0
  }

  /** At least one of reps, duration or distance is set. */
  predicate Active(reps: Option<int>, duration: Option<nat>, distance: Option<Measurement>) {
    RepsSet(reps) || DurationSet(duration) || distance.Some?
  }

  // ---------------------------------------------------------------------------
  // to_str and the duration text
  // ---------------------------------------------------------------------------

  /** Two digits with a leading zero (`%02d`). */
  function TwoDigits(n: nat): (s: string)
    requires n < 100
    ensures |s| == 2 && AllDigits(s) && DigitsValue(s) == n
  {
    var s := [DigitChar(n / 10), DigitChar(n % 10)];
    assert s[..1] == [DigitChar(n / 10)];
    assert s[..1][..0] == [];
    assert DigitsValue(s[..1]) == n / 10;
    s
  }

  /** `str(timedelta(seconds=n))`: hours, then minutes and seconds as two
      digits each (`H:MM:SS`), preceded by `D day, ` or `D days, ` once the
      duration reaches a day. */
  function RenderDuration(n: nat): (s: string)
    ensures |s| >= 7
    ensures s[|s| - 6..] == ":" + TwoDigits(n / 60 % 60) + ":" + TwoDigits(n % 60)
    ensures n < 86400 ==> s == IntToString(n / 3600) + s[|s| - 6..]
  {
    var days := n / 86400;
    var tail := ":" + TwoDigits(n / 60 % 60) + ":" + TwoDigits(n % 60);
    var clock := IntToString(n / 3600 % 24) + tail;
    assert clock[|clock| - 6..] == tail;
    if days == 0 then
      UnderADay(n);
      clock
    else
      var s := IntToString(days) + (if days == 1 then " day, " else " days, ") + clock;
      assert s[|s| - 6..] == tail;
      s
  }

  /** Under a day, the hour count is below 24 and no days are shown. */
  lemma UnderADay(n: nat)
    requires n / 86400 == 0
    ensures n / 3600 % 24 == n / 3600
  {
    assert n < 86400;
    assert n / 3600 < 24;
  }

  /** `to_str(reps)`: empty exactly when the count is falsy. */
  function RepsText(reps: Option<int>): (s: string)
    ensures s == "" <==> !RepsSet(reps)
    ensures RepsSet(reps) ==> (s[0] == '-' <==> reps.value < 0)
  {
    if RepsSet(reps) then IntToString(reps.value) else ""
  }

  /** `to_str(duration)`: empty exactly when the duration is falsy. */
  function DurationText(duration: Option<nat>): (s: string)
    ensures s == "" <==> !DurationSet(duration)
  {
    if DurationSet(duration) then RenderDuration(duration.value) else ""
  }

  /** `to_str(measurement)`: empty exactly when there is no measurement. */
  function MeasurementText(m: Option<Measurement>): (s: string)
    ensures s == "" <==> m.None?
  {
    if m.Some? then Measurements.Render(m.value) else ""
  }

  // ---------------------------------------------------------------------------
  // __str__
  // ---------------------------------------------------------------------------

  /** `filter(None, parts)`: the non-empty parts, in order. */
  function NonEmpty(parts: seq<string>): (r: seq<string>)
    ensures |r| <= |parts|
    ensures forall i :: 0 <= i < |r| ==> r[i] != ""
    ensures r == [] <==> forall i :: 0 <= i < |parts| ==> parts[i] == ""
    ensures parts != [] && parts[0] != "" ==> r != [] && r[0] == parts[0]
    ensures |parts| == 1 ==> r == (if parts[0] == "" then [] else parts)
  {
    if parts == [] then
      []
    else
      var rest := NonEmpty(parts[1..]);
      if parts[0] == "" then
        assert forall i :: 1 <= i < |parts| ==> parts[i] == parts[1..][i - 1];
        rest
      else
        [parts[0]] + rest
  }

  /** The six parts of `__str__`, in their fixed order. */
  function Parts(e: Exercise): (ps: seq<string>)
    ensures |ps| == 6
  {
    [DurationText(e.duration), RepsText(e.reps), MeasurementText(e.distance),
     e.name, MeasurementText(e.weight), MeasurementText(e.height)]
  }

  /** `__str__`: duration, reps, distance, name, weight and height, the empty
      ones dropped, joined by single spaces. */
  function Render(e: Exercise): (s: string)
    ensures s == "" <==> forall i :: 0 <= i < 6 ==> Parts(e)[i] == ""
  {
    var ps := NonEmpty(Parts(e));
    JoinNonEmpty(ps, " ");
    Join(ps, " ")
  }

  /** Filtering a concatenation filters each side: every non-empty part is
      kept, and the kept parts stay in their order. */
  lemma {:induction false} NonEmptyAppend(a: seq<string>, b: seq<string>)
    ensures NonEmpty(a + b) == NonEmpty(a) + NonEmpty(b)
  {
    if a == [] {
      assert a + b == b;
    } else {
      assert (a + b)[0] == a[0];
      assert (a + b)[1..] == a[1..] + b;
      NonEmptyAppend(a[1..], b);
    }
  }

  /** The words of the dropped empty parts are none, so filtering changes no word. */
  lemma {:induction false} SplitEachNonEmpty(ps: seq<string>)
    ensures SplitEach(NonEmpty(ps)) == SplitEach(ps)
  {
    if ps != [] {
      SplitEachNonEmpty(ps[1..]);
      if ps[0] != "" {
        var r := [ps[0]] + NonEmpty(ps[1..]);
        assert r[0] == ps[0] && r[1..] == NonEmpty(ps[1..]);
      }
    }
  }

  /** The words of `__str__` are the words of the duration, the reps, the
      distance, the name, the weight and the height, in that order. */
  lemma RenderWords(e: Exercise)
    ensures Split(Render(e)) == Split(DurationText(e.duration)) + Split(RepsText(e.reps))
                                + Split(MeasurementText(e.distance)) + Split(e.name)
                                + Split(MeasurementText(e.weight)) + Split(MeasurementText(e.height))
  {
    var ps := Parts(e);
    SplitJoinSpaced(NonEmpty(ps));
    SplitEachNonEmpty(ps);
    SplitEachSix(ps);
  }

  lemma SplitEachSix(ps: seq<string>)
    requires |ps| == 6
    ensures SplitEach(ps) == Split(ps[0]) + Split(ps[1]) + Split(ps[2]) + Split(ps[3]) + Split(ps[4]) + Split(ps[5])
  {
    SplitEachStep(ps, 0);
    SplitEachStep(ps, 1);
    SplitEachStep(ps, 2);
    SplitEachStep(ps, 3);
    SplitEachStep(ps, 4);
    SplitEachStep(ps, 5);
    assert ps[0..] == ps && ps[6..] == [];
    Flatten(Split(ps[0]), Split(ps[1]), Split(ps[2]), Split(ps[3]), Split(ps[4]), Split(ps[5]));
  }

  lemma SplitEachStep(ps: seq<string>, i: nat)
    requires i < |ps|
    ensures SplitEach(ps[i..]) == Split(ps[i]) + SplitEach(ps[i + 1..])
  {
    assert ps[i..][0] == ps[i] && ps[i..][1..] == ps[i + 1..];
  }

  lemma Flatten<T>(a: seq<T>, b: seq<T>, c: seq<T>, d: seq<T>, e: seq<T>, f: seq<T>)
    ensures a + (b + (c + (d + (e + (f + []))))) == a + b + c + d + e + f
  {
  }

  lemma JoinNonEmpty(ps: seq<string>, sep: string)
    requires forall i :: 0 <= i < |ps| ==> ps[i] != ""
    ensures Join(ps, sep) == "" <==> ps == []
  {
  }

  /** The name a complex takes: its children's renderings joined by " + ".
      No member gives the empty name and one member gives its own rendering;
      `ComplexNameCons` adds the members behind the first. */
  function ComplexName(cs: seq<Exercise>): (name: string)
    ensures cs == [] ==> name == ""
    ensures |cs| == 1 ==> name == Render(cs[0])
  {
    Join(Renders(cs), " + ")
  }

  /** Each member behind the first adds " + " and the name of the rest. */
  lemma ComplexNameCons(cs: seq<Exercise>)
    requires |cs| > 1
    ensures ComplexName(cs) == Render(cs[0]) + " + " + ComplexName(cs[1..])
  {
    assert Renders(cs)[1..] == Renders(cs[1..]);
  }

  /** The renderings of a list of exercises, in order. */
  function Renders(cs: seq<Exercise>): (rs: seq<string>)
    ensures |rs| == |cs|
  {
    if cs == [] then [] else [Render(cs[0])] + Renders(cs[1..])
  }

  /** The rendering at each position is the member's rendering. */
  lemma {:induction false} RendersIndex(cs: seq<Exercise>, i: nat)
    requires i < |cs|
    ensures Renders(cs)[i] == Render(cs[i])
  {
    if i > 0 {
      RendersIndex(cs[1..], i - 1);
      assert cs[1..][i - 1] == cs[i];
    }
  }

  // ---------------------------------------------------------------------------
  // __post_init__
  // ---------------------------------------------------------------------------

  /** What a member of a complex may carry: no weight, distance or height, no
      (truthy) duration and no (non-empty) sub-exercises. */
  predicate Plain(c: Exercise) {
    c.weight.None? && c.distance.None? && c.height.None?
    && !DurationSet(c.duration) && !SubsSet(c.subExercises)
  }

  predicate AllPlain(cs: seq<Exercise>) {
    forall i :: 0 <= i < |cs| ==> Plain(cs[i])
  }

  /** `Exercise(name, reps, weight, duration, distance, height, sub_exercises)`
      with its `__post_init__`. The reps/duration/distance check comes first
      and applies to every exercise, complex or not. A complex (any list, even
      an empty one) takes the joined name of its members, whatever name was
      given, and rejects members that carry more than reps; any other
      exercise has its name stripped and capitalised word by word. */
  function Make(name: string, reps: Option<int>, weight: Option<Measurement>, duration: Option<nat>,
                distance: Option<Measurement>, height: Option<Measurement>,
                subs: Members): (r: Result<Exercise, Error>)
    ensures !Active(reps, duration, distance) ==> r == Failure(ValueError(NoRepsDurationOrDistance))
    ensures (Active(reps, duration, distance) && subs.Complex? && !AllPlain(subs.members))
              ==> r == Failure(ValueError(FieldsOnSubExercise))
    ensures r.Success? <==> Active(reps, duration, distance) && (subs.Complex? ==> AllPlain(subs.members))
    ensures r.Success? ==> r.value.reps == reps && r.value.weight == weight && r.value.duration == duration
                           && r.value.distance == distance && r.value.height == height
                           && r.value.subExercises == subs
    ensures r.Success? && subs.Single? ==> r.value.name == CapWords(Strip(name))
    ensures r.Success? && subs.Complex? ==> r.value.name == ComplexName(subs.members)
  {
    if !Active(reps, duration, distance) then
      Failure(ValueError(NoRepsDurationOrDistance))
    else if subs.Complex? then
      if !AllPlain(subs.members) then
        Failure(ValueError(FieldsOnSubExercise))
      else
        Success(Exercise(ComplexName(subs.members), reps, weight, duration, distance, height, subs))
    else
      Success(Exercise(CapWords(Strip(name)), reps, weight, duration, distance, height, Single))
  }

  /** What every constructed exercise satisfies: it is active, and its name is
      canonical — a fixed point of the capitalisation for a single exercise,
      the join of its members' renderings for a complex whose members are
      plain and themselves constructed. */
  predicate Valid(e: Exercise)
    decreases e
  {
    Active(e.reps, e.duration, e.distance)
    && match e.subExercises
       case Single => e.name == CapWords(Strip(e.name))
       case Complex(cs) => ValidComplex(e.name, cs)
  }

  /** A complex's name is its members' joined renderings, and its members
      are plain and valid. */
  predicate ValidComplex(name: string, cs: seq<Exercise>)
    decreases cs, 1
  {
    name == ComplexName(cs) && ValidMembers(cs)
  }

  /** Every member of the list is plain and valid, stated member by member
      from the front. */
  predicate ValidMembers(cs: seq<Exercise>)
    decreases cs, 0
  {
    cs == [] || (Plain(cs[0]) && Valid(cs[0]) && ValidMembers(cs[1..]))
  }

  /** The list form of `ValidMembers` says the same as the quantified one. */
  lemma {:induction false} ValidMembersAll(cs: seq<Exercise>)
    ensures ValidMembers(cs) <==> forall i :: 0 <= i < |cs| ==> Plain(cs[i]) && Valid(cs[i])
  {
    if cs != [] {
      ValidMembersAll(cs[1..]);
      assert forall i :: 0 < i < |cs| ==> cs[i] == cs[1..][i - 1];
      assert forall i :: 0 <= i < |cs| - 1 ==> cs[1..][i] == cs[i + 1];
    }
  }

  // ---------------------------------------------------------------------------
  // to_dict
  // ---------------------------------------------------------------------------

  /** The dictionary `to_dict` returns and `from_dict` reads. A key is present
      when its field is `Some` (for "sub_exercises", `Present`); a key present
      with value `None` reads the same as a missing one, so the two are not
      told apart. */
  datatype ExerciseDict = ExerciseDict(
    name: Option<string>,
    reps: Option<int>,
    weight: Option<string>,
    duration: Option<string>,
    distance: Option<string>,
    height: Option<string>,
    subExercises: SubDicts)

  /** The "sub_exercises" entry: missing, or a list of dictionaries. */
  datatype SubDicts = Absent | Present(dicts: seq<ExerciseDict>)

  /** No present key holds a falsy value, in the dictionary or any nested one. */
  predicate NoFalsyValues(d: ExerciseDict)
    decreases d
  {
    (d.name.Some? ==> d.name.value != "")
    && (d.reps.Some? ==> d.reps.value != 0)
    && (d.weight.Some? ==> d.weight.value != "")
    && (d.duration.Some? ==> d.duration.value != "")
    && (d.distance.Some? ==> d.distance.value != "")
    && (d.height.Some? ==> d.height.value != "")
    && match d.subExercises
       case Absent => true
       case Present(ds) => |ds| > 0 && forall i :: 0 <= i < |ds| ==> NoFalsyValues(ds[i])
  }

  /** The `if value` filter applied to a text entry. */
  function Keep(s: string): (r: Option<string>)
    ensures r.None? <==> s == ""
    ensures r.Some? ==> r.value == s
  {
    if s == "" then None else Some(s)
  }

  /** `to_dict`: the name, reps and the text of each measurement and duration,
      and the members' dictionaries, keeping only the truthy values. */
  function ToDict(e: Exercise): (d: ExerciseDict)
    ensures NoFalsyValues(d)
    ensures d.name.Some? <==> e.name != ""
    ensures d.reps.Some? <==> RepsSet(e.reps)
    ensures d.weight.Some? <==> e.weight.Some?
    ensures d.duration.Some? <==> DurationSet(e.duration)
    ensures d.distance.Some? <==> e.distance.Some?
    ensures d.height.Some? <==> e.height.Some?
    ensures d.subExercises.Present? <==> SubsSet(e.subExercises)
    ensures d.subExercises.Present? ==> |d.subExercises.dicts| == |e.subExercises.members|
    ensures d.name.Some? ==> d.name.value == e.name
    ensures d.reps.Some? ==> d.reps == e.reps
    ensures d.weight.Some? ==> d.weight.value == MeasurementText(e.weight)
    ensures d.duration.Some? ==> d.duration.value == DurationText(e.duration)
    ensures d.distance.Some? ==> d.distance.value == MeasurementText(e.distance)
    ensures d.height.Some? ==> d.height.value == MeasurementText(e.height)
    decreases e, 1
  {
    var subs :=
      match e.subExercises
      case Single => Absent
      case Complex(cs) =>
        if |cs| == 0 then Absent
        else Present(ToDicts(cs));
    ExerciseDict(
      Keep(e.name),
      if RepsSet(e.reps) then e.reps else None,
      Keep(MeasurementText(e.weight)),
      Keep(DurationText(e.duration)),
      Keep(MeasurementText(e.distance)),
      Keep(MeasurementText(e.height)),
      subs)
  }

  /** The members' dictionaries, in order. */
  function ToDicts(cs: seq<Exercise>): (ds: seq<ExerciseDict>)
    ensures |ds| == |cs|
    ensures forall i :: 0 <= i < |ds| ==> NoFalsyValues(ds[i])
    decreases cs, 0
  {
    if cs == [] then
      []
    else
      var d := ToDict(cs[0]);
      var rest := ToDicts(cs[1..]);
      AllCons(NoFalsyValues, d, rest);
      [d] + rest
  }

  // ---------------------------------------------------------------------------
  // from_dict
  // ---------------------------------------------------------------------------

  /** A measurement entry: `from_str` of the class when present. */
  function ReadMeasurement(cat: Category, s: Option<string>): (r: Result<Option<Measurement>, Error>)
    ensures s.None? ==> r == Success(None)
    ensures s.Some? ==> (r.Success? <==> FromStr(cat, s.value).Success?)
    ensures s.Some? && r.Success? ==> r.value == Some(FromStr(cat, s.value).value)
    ensures s.Some? && r.Failure? ==> r.error == FromStr(cat, s.value).error
  {
    match s
    case None => Success(None)
    case Some(text) =>
      var m :- FromStr(cat, text);
      Success(Some(m))
  }

  /** A duration entry: `timedelta(seconds=parse(text))`, where `parse` stands
      for the duration parser the library delegates to and `None` from it makes
      the `timedelta` constructor raise `TypeError`. */
  function ReadDuration(s: Option<string>, parse: string -> Option<nat>): (r: Result<Option<nat>, Error>)
    ensures s.None? ==> r == Success(None)
    ensures s.Some? && parse(s.value).None? ==> r == Failure(TypeError)
    ensures s.Some? && parse(s.value).Some? ==> r == Success(parse(s.value))
  {
    match s
    case None => Success(None)
    case Some(text) =>
      match parse(text)
      case None => Failure(TypeError)
      case Some(seconds) => Success(Some(seconds))
  }

  /** `from_dict`: weight, duration, distance, height and then the members are
      read in that order, the first failure winning; then the "name" key is
      looked up, and the exercise is built. */
  function FromDict(d: ExerciseDict, parse: string -> Option<nat>): (r: Result<Exercise, Error>)
    ensures r.Success? ==> Valid(r.value)
    ensures r.Success? ==> d.name.Some? && r.value.reps == d.reps
    ensures (d.weight.Some? && FromStr(Weight, d.weight.value).Failure?)
              ==> r == Failure(FromStr(Weight, d.weight.value).error)
    decreases d, 1
  {
    var weight :- ReadMeasurement(Weight, d.weight);
    var duration :- ReadDuration(d.duration, parse);
    var distance :- ReadMeasurement(Distance, d.distance);
    var height :- ReadMeasurement(Distance, d.height);
    var subs :- ReadMembers(d.subExercises, parse);
    var name :- if d.name.None? then Failure(KeyError("name")) else Success(d.name.value);
    var r := Make(name, d.reps, weight, duration, distance, height, subs);
    MakeValid(name, d.reps, weight, duration, distance, height, subs);
    r
  }

  /** The "sub_exercises" entry, when present. */
  function ReadMembers(ds: SubDicts, parse: string -> Option<nat>): (r: Result<Members, Error>)
    ensures ds.Absent? ==> r == Success(Single)
    ensures r.Success? && ds.Present? ==> r.value.Complex? && |r.value.members| == |ds.dicts|
    ensures r.Success? && r.value.Complex? ==> forall i :: 0 <= i < |r.value.members| ==> Valid(r.value.members[i])
    decreases ds, 2
  {
    match ds
    case Absent => Success(Single)
    case Present(list) =>
      var cs :- FromDicts(list, parse);
      Success(Complex(cs))
  }

  /** `[from_dict(d) for d in ds]`: left to right, the first failure winning. */
  function FromDicts(ds: seq<ExerciseDict>, parse: string -> Option<nat>): (r: Result<seq<Exercise>, Error>)
    ensures r.Success? ==> |r.value| == |ds|
    ensures r.Success? ==> forall i :: 0 <= i < |ds| ==> Valid(r.value[i])
    decreases ds, 0
  {
    if ds == [] then
      Success([])
    else
      var c :- FromDict(ds[0], parse);
      var cs :- FromDicts(ds[1..], parse);
      AllValidCons(c, cs);
      Success([c] + cs)
  }

  lemma AllValidCons(c: Exercise, cs: seq<Exercise>)
    requires Valid(c) && forall i :: 0 <= i < |cs| ==> Valid(cs[i])
    ensures forall i :: 0 <= i < |[c] + cs| ==> Valid(([c] + cs)[i])
  {
    AllCons(Valid, c, cs);
  }

  /** A property of every element survives putting one more element in front. */
  lemma AllCons<T>(p: T -> bool, c: T, cs: seq<T>)
    requires p(c) && forall i :: 0 <= i < |cs| ==> p(cs[i])
    ensures forall i :: 0 <= i < |[c] + cs| ==> p(([c] + cs)[i])
  {
    forall i | 0 <= i < |[c] + cs|
      ensures p(([c] + cs)[i])
    {
      if i > 0 {
        assert ([c] + cs)[i] == cs[i - 1];
      }
    }
  }

  // ---------------------------------------------------------------------------
  // Construction lemmas
  // ---------------------------------------------------------------------------

  /** Every exercise the constructor returns is valid, given valid members:
      the capitalised name is already canonical, so constructing again would
      not change it. */
  lemma MakeValid(name: string, reps: Option<int>, weight: Option<Measurement>, duration: Option<nat>,
                  distance: Option<Measurement>, height: Option<Measurement>, subs: Members)
    requires subs.Complex? ==> forall i :: 0 <= i < |subs.members| ==> Valid(subs.members[i])
    ensures (Make(name, reps, weight, duration, distance, height, subs).Success?)
              ==> Valid(Make(name, reps, weight, duration, distance, height, subs).value)
  {
    if subs.Single? {
      CapWordsStripIdempotent(name);
    } else {
      ValidMembersAll(subs.members);
    }
  }

  /** Constructing a valid exercise again from its own fields gives it back
      unchanged: the name it was given is ignored for a complex and is already
      canonical otherwise. */
  lemma MakeFixed(e: Exercise)
    requires Valid(e)
    ensures Make(e.name, e.reps, e.weight, e.duration, e.distance, e.height, e.subExercises) == Success(e)
  {
    if e.subExercises.Complex? {
      ValidMembersAll(e.subExercises.members);
    }
  }

  /** Construction is idempotent on names: reconstructing a constructed
      exercise changes nothing. */
  lemma MakeIdempotent(name: string, reps: Option<int>, weight: Option<Measurement>, duration: Option<nat>,
                       distance: Option<Measurement>, height: Option<Measurement>, subs: Members)
    requires subs.Complex? ==> forall i :: 0 <= i < |subs.members| ==> Valid(subs.members[i])
    requires Make(name, reps, weight, duration, distance, height, subs).Success?
    ensures var e := Make(name, reps, weight, duration, distance, height, subs).value;
            Make(e.name, reps, weight, duration, distance, height, subs) == Success(e)
  {
    MakeValid(name, reps, weight, duration, distance, height, subs);
    MakeFixed(Make(name, reps, weight, duration, distance, height, subs).value);
  }

  /** Every member of a valid complex is counted in reps: it may carry
      neither a distance nor a duration, and it has to be active. */
  lemma MembersHaveReps(e: Exercise)
    requires Valid(e) && e.subExercises.Complex?
    ensures forall i :: 0 <= i < |e.subExercises.members| ==> RepsSet(e.subExercises.members[i].reps)
  {
    ValidMembersAll(e.subExercises.members);
  }

  /** A member of a valid complex renders as its reps and its name ("3 Clean"),
      the name left out when it is empty. */
  lemma MemberRender(c: Exercise)
    requires Plain(c) && RepsSet(c.reps)
    ensures Render(c) == if c.name == "" then IntToString(c.reps.value) else IntToString(c.reps.value) + " " + c.name
  {
    var reps := IntToString(c.reps.value);
    var ps := Parts(c);
    assert ps == ["", reps, "", c.name, "", ""];
    assert NonEmpty(ps[4..]) == [];
    assert NonEmpty(ps[3..]) == (if c.name == "" then [] else [c.name]) by {
      assert ps[3..][1..] == ps[4..];
    }
    assert NonEmpty(ps[2..]) == NonEmpty(ps[3..]) by {
      assert ps[2..][1..] == ps[3..];
    }
    assert NonEmpty(ps[1..]) == [reps] + NonEmpty(ps[3..]) by {
      assert ps[1..][1..] == ps[2..];
    }
    assert NonEmpty(ps) == NonEmpty(ps[1..]);
    if c.name != "" {
      var both := [reps, c.name];
      assert NonEmpty(ps) == both;
      assert both[1..] == [c.name];
      assert Join(both, " ") == reps + " " + c.name;
    } else {
      assert NonEmpty(ps) == [reps];
    }
  }

  /** A valid exercise always renders to some text. */
  lemma RenderActive(e: Exercise)
    requires Active(e.reps, e.duration, e.distance)
    ensures Render(e) != ""
  {
    if RepsSet(e.reps) {
      assert Parts(e)[1] != "";
    } else if DurationSet(e.duration) {
      assert Parts(e)[0] != "";
    } else {
      assert Parts(e)[2] != "";
    }
  }

  /** A complex with at least one member has a non-empty name. */
  lemma ComplexNameNonEmpty(e: Exercise)
    requires Valid(e) && SubsSet(e.subExercises)
    ensures e.name != ""
  {
    var cs := e.subExercises.members;
    assert ValidComplex(e.name, cs) && ValidMembers(cs);
    assert Valid(cs[0]);
    RenderActive(cs[0]);
    assert Renders(cs)[0] != "";
  }

  // ---------------------------------------------------------------------------
  // Round trip
  // ---------------------------------------------------------------------------

  /** A measurement field that reads back from its text: of the class the
      field declares and with a non-negative value. */
  predicate Readable(cat: Category, m: Option<Measurement>) {
    m.Some? ==> WellFormed(m.value) && m.value.cat == cat && m.value.value.mantissa >= 0
  }

  /** The fields of one exercise that survive `to_dict`: readable
      measurements, and no count or duration of zero (both are dropped as
      falsy and read back as unset). */
  predicate FieldsSurvive(e: Exercise) {
    Readable(Weight, e.weight) && Readable(Distance, e.distance) && Readable(Distance, e.height)
    && e.reps != Some(0) && e.duration != Some(0)
  }

  /** The exercises `from_dict(to_dict(e))` gives back: the fields survive,
      a single exercise has a non-empty name, and a complex has members, each
      of which survives. */
  predicate Survives(e: Exercise)
    decreases e
  {
    FieldsSurvive(e)
    && match e.subExercises
       case Single => e.name != ""
       case Complex(cs) => SurvivesComplex(cs)
  }

  /** A complex survives when it has members and each of them survives. */
  predicate SurvivesComplex(cs: seq<Exercise>)
    decreases cs, 1
  {
    |cs| > 0 && MembersSurvive(cs)
  }

  /** Every member of the list survives, stated member by member from the front. */
  predicate MembersSurvive(cs: seq<Exercise>)
    decreases cs, 0
  {
    cs == [] || (Survives(cs[0]) && MembersSurvive(cs[1..]))
  }

  /** The list form of `MembersSurvive` says the same as the quantified one. */
  lemma {:induction false} MembersSurviveAll(cs: seq<Exercise>)
    ensures MembersSurvive(cs) <==> forall i :: 0 <= i < |cs| ==> Survives(cs[i])
  {
    if cs != [] {
      MembersSurviveAll(cs[1..]);
      assert forall i :: 0 < i < |cs| ==> cs[i] == cs[1..][i - 1];
      assert forall i :: 0 <= i < |cs| - 1 ==> cs[1..][i] == cs[i + 1];
    }
  }

  /** The duration parser reads back every non-zero duration's text. */
  ghost predicate ReadsDurations(parse: string -> Option<nat>) {
    forall n: nat :: n > 0 ==> ReadsDuration(parse, n)
  }

  /** The duration parser reads back the text of `n` seconds. */
  ghost predicate ReadsDuration(parse: string -> Option<nat>, n: nat) {
    parse(RenderDuration(n)) == Some(n)
  }

  /** The dictionary entries of surviving fields read back as the fields. */
  lemma FieldsRoundTrip(e: Exercise, parse: string -> Option<nat>)
    requires FieldsSurvive(e) && ReadsDurations(parse)
    ensures ReadMeasurement(Weight, ToDict(e).weight) == Success(e.weight)
    ensures ReadDuration(ToDict(e).duration, parse) == Success(e.duration)
    ensures ReadMeasurement(Distance, ToDict(e).distance) == Success(e.distance)
    ensures ReadMeasurement(Distance, ToDict(e).height) == Success(e.height)
    ensures ToDict(e).reps == e.reps
  {
    if e.weight.Some? {
      FromStrRender(e.weight.value);
    }
    if e.distance.Some? {
      FromStrRender(e.distance.value);
    }
    if e.height.Some? {
      FromStrRender(e.height.value);
    }
    if DurationSet(e.duration) {
      assert ReadsDuration(parse, e.duration.value);
    }
  }

  /** `from_dict(to_dict(e)) == e` for every valid exercise that survives,
      complexes included, given a duration parser that reads the duration
      text back. */
  lemma {:induction false} DictRoundTrip(e: Exercise, parse: string -> Option<nat>)
    requires Valid(e) && Survives(e) && ReadsDurations(parse)
    ensures FromDict(ToDict(e), parse) == Success(e)
    decreases e, 1
  {
    var d := ToDict(e);
    FieldsRoundTrip(e, parse);
    if e.subExercises.Single? {
      assert d.subExercises == Absent;
    } else {
      ComplexNameNonEmpty(e);
      MembersReadBack(e, parse);
    }
    assert d.name == Some(e.name);
    FromDictReads(d, parse, e.weight, e.duration, e.distance, e.height, e.subExercises);
    MakeFixed(e);
  }

  /** The "sub_exercises" entry of a surviving complex reads back as its members. */
  lemma {:induction false} MembersReadBack(e: Exercise, parse: string -> Option<nat>)
    requires Valid(e) && Survives(e) && ReadsDurations(parse) && e.subExercises.Complex?
    ensures ReadMembers(ToDict(e).subExercises, parse) == Success(e.subExercises)
    decreases e, 0
  {
    var cs := e.subExercises.members;
    MembersOk(e);
    var ds := ToDicts(cs);
    forall i | 0 <= i < |ds|
      ensures FromDict(ds[i], parse) == Success(cs[i])
    {
      ToDictsIndex(cs, i);
      DictRoundTrip(cs[i], parse);
    }
    MembersRoundTrip(ds, cs, parse);
    assert ToDict(e).subExercises == Present(ToDicts(cs));
  }

  /** The members of a valid, surviving complex are valid and survive, and there is one at least. */
  lemma MembersOk(e: Exercise)
    requires Valid(e) && Survives(e) && e.subExercises.Complex?
    ensures |e.subExercises.members| > 0
    ensures forall i :: 0 <= i < |e.subExercises.members| ==>
              Valid(e.subExercises.members[i]) && Survives(e.subExercises.members[i])
  {
    ValidMembersAll(e.subExercises.members);
    MembersSurviveAll(e.subExercises.members);
  }

  /** `from_dict` of a dictionary whose entries all read: the constructor
      applied to what was read. */
  lemma FromDictReads(d: ExerciseDict, parse: string -> Option<nat>, weight: Option<Measurement>, duration: Option<nat>,
                      distance: Option<Measurement>, height: Option<Measurement>, subs: Members)
    requires ReadMeasurement(Weight, d.weight) == Success(weight)
    requires ReadDuration(d.duration, parse) == Success(duration)
    requires ReadMeasurement(Distance, d.distance) == Success(distance)
    requires ReadMeasurement(Distance, d.height) == Success(height)
    requires ReadMembers(d.subExercises, parse) == Success(subs)
    requires d.name.Some?
    ensures FromDict(d, parse) == Make(d.name.value, d.reps, weight, duration, distance, height, subs)
  {
  }

  /** Dictionaries that each read back as an exercise read back as the list of them. */
  lemma {:induction false} MembersRoundTrip(ds: seq<ExerciseDict>, cs: seq<Exercise>, parse: string -> Option<nat>)
    requires |ds| == |cs|
    requires forall i :: 0 <= i < |ds| ==> FromDict(ds[i], parse) == Success(cs[i])
    ensures FromDicts(ds, parse) == Success(cs)
  {
    if ds != [] {
      forall i | 0 <= i < |ds[1..]|
        ensures FromDict(ds[1..][i], parse) == Success(cs[1..][i])
      {
        assert ds[1..][i] == ds[i + 1] && cs[1..][i] == cs[i + 1];
      }
      MembersRoundTrip(ds[1..], cs[1..], parse);
      FromDictsCons(ds, parse, cs[0], cs[1..]);
      assert [cs[0]] + cs[1..] == cs;
    }
  }

  /** The dictionary at each position is the member's dictionary. */
  lemma {:induction false} ToDictsIndex(cs: seq<Exercise>, i: nat)
    requires i < |cs|
    ensures ToDicts(cs)[i] == ToDict(cs[i])
  {
    if i > 0 {
      ToDictsIndex(cs[1..], i - 1);
      assert cs[1..][i - 1] == cs[i];
    }
  }

  /** Reading a non-empty list: the first dictionary, then the rest. */
  lemma FromDictsCons(ds: seq<ExerciseDict>, parse: string -> Option<nat>, c: Exercise, cs: seq<Exercise>)
    requires ds != []
    requires FromDict(ds[0], parse) == Success(c)
    requires FromDicts(ds[1..], parse) == Success(cs)
    ensures FromDicts(ds, parse) == Success([c] + cs)
  {
  }

  /** A count of zero is falsy, so `to_dict` drops it and the exercise reads
      back with no count at all. */
  lemma RepsZeroReadsAsUnset(e: Exercise, parse: string -> Option<nat>)
    requires Valid(e) && e.reps == Some(0) && Survives(e.(reps := None)) && ReadsDurations(parse)
    ensures FromDict(ToDict(e), parse) == Success(e.(reps := None))
  {
    assert ToDict(e) == ToDict(e.(reps := None));
    DictRoundTrip(e.(reps := None), parse);
  }

  /** A name that is empty after construction (all blanks, say) is dropped by
      `to_dict`, and reading the dictionary back then fails on the missing
      "name" key. */
  lemma EmptyNameFails(e: Exercise, parse: string -> Option<nat>)
    requires Valid(e) && e.subExercises.Single? && e.name == "" && FieldsSurvive(e) && ReadsDurations(parse)
    ensures FromDict(ToDict(e), parse) == Failure(KeyError("name"))
  {
    var d := ToDict(e);
    FieldsRoundTrip(e, parse);
    assert d.name == None;
    assert ReadMembers(d.subExercises, parse) == Success(Single);
  }

  /** A complex with an empty member list is named "" and its list is falsy,
      so both keys are dropped and reading back fails on the "name" key. */
  lemma EmptyComplexFails(e: Exercise, parse: string -> Option<nat>)
    requires Valid(e) && e.subExercises == Complex([]) && FieldsSurvive(e) && ReadsDurations(parse)
    ensures e.name == ""
    ensures FromDict(ToDict(e), parse) == Failure(KeyError("name"))
  {
    var d := ToDict(e);
    FieldsRoundTrip(e, parse);
    assert d.name == None;
    assert ReadMembers(d.subExercises, parse) == Success(Single);
  }

  // ---------------------------------------------------------------------------
  // Examples
  // ---------------------------------------------------------------------------

  /** Half a minute prints as "0:00:30", as in the exercise "0:00:30 Handstand Hold". */
  lemma HalfMinuteText()
    ensures RenderDuration(30) == "0:00:30"
  {
    assert TwoDigits(0) == "00";
    assert TwoDigits(30) == "30";
    assert IntToString(0) == "0";
    assert RenderDuration(30) == "0" + ":" + "00" + ":" + "30";
    HalfMinuteConcat();
  }

  lemma HalfMinuteConcat()
    ensures "0" + ":" + "00" + ":" + "30" == "0:00:30"
  {
  }

  /** A day and an hour, a minute and a second print with the day in front. */
  lemma DayText()
    ensures RenderDuration(90061) == "1 day, 1:01:01"
  {
    DayArithmetic();
    assert TwoDigits(1) == "01";
    assert IntToString(1) == "1";
    assert RenderDuration(90061) == "1" + " day, " + "1" + ":" + "01" + ":" + "01";
    assert "1" + " day, " + "1" + ":" + "01" + ":" + "01" == "1 day, 1:01:01";
  }

  lemma DayArithmetic()
    ensures 90061 / 86400 == 1 && 90061 / 3600 % 24 == 1 && 90061 / 60 % 60 == 1 && 90061 % 60 == 1
  {
  }

  lemma NonEmptyCons(a: string, rest: seq<string>)
    ensures NonEmpty([a] + rest) == (if a == "" then [] else [a]) + NonEmpty(rest)
  {
    assert ([a] + rest)[1..] == rest;
  }

  lemma BackSquatWords()
    ensures Join(["back", "squat"], " ") == "back squat"
    ensures AllWords(["back", "squat"])
  {
    assert IsWord("back") && IsWord("squat");
  }

  lemma BackSquatCapitals()
    ensures CapitalizeAll(["back", "squat"]) == ["Back", "Squat"]
  {
    BackCapital();
    SquatCapital();
    var r := CapitalizeAll(["back", "squat"]);
    assert r[0] == "Back" && r[1] == "Squat";
  }

  lemma BackCapital()
    ensures Capitalize("back") == "Back"
  {
    assert LowerAll("ack") == "ack";
  }

  lemma SquatCapital()
    ensures Capitalize("squat") == "Squat"
  {
    assert LowerAll("quat") == "quat";
  }

  /** "back squat" title-cased word by word. */
  lemma BackSquatName()
    ensures CapWords(Strip("back squat")) == "Back Squat"
  {
    BackSquatWords();
    CapWordsOfWords(["back", "squat"]);
    BackSquatCapitals();
    JoinTwo("Back", "Squat", " ");
    BackSquatConcat();
  }

  lemma BackSquatConcat()
    ensures "Back" + " " + "Squat" == "Back Squat"
  {
  }

  /** A single exercise is named by capitalising each word of its name:
      "back squat" becomes "Back Squat". */
  lemma BackSquatExample()
    ensures var weight := Some(Measurement(Weight, Decimal(100, 0), "kg"));
            Make("back squat", Some(5), weight, None, None, None, Single)
              == Success(Exercise("Back Squat", Some(5), weight, None, None, None, Single))
  {
    BackSquatName();
  }

  lemma MemberText(name: string, reps: nat, text: string)
    requires name != "" && reps > 0 && text == IntToString(reps) + " " + name
    ensures Render(Exercise(name, Some(reps), None, None, None, None, Single)) == text
  {
    MemberRender(Exercise(name, Some(reps), None, None, None, None, Single));
  }

  lemma CleanAndJerkMembers()
    ensures Render(Exercise("Clean", Some(3), None, None, None, None, Single)) == "3 Clean"
    ensures Render(Exercise("Jerk", Some(1), None, None, None, None, Single)) == "1 Jerk"
  {
    CleanText();
    JerkText();
  }

  lemma CleanText()
    ensures Render(Exercise("Clean", Some(3), None, None, None, None, Single)) == "3 Clean"
  {
    assert IntToString(3) == "3";
    MemberText("Clean", 3, "3 Clean");
  }

  lemma JerkText()
    ensures Render(Exercise("Jerk", Some(1), None, None, None, None, Single)) == "1 Jerk"
  {
    assert IntToString(1) == "1";
    MemberText("Jerk", 1, "1 Jerk");
  }

  lemma CleanAndJerkName()
    ensures ComplexName([Exercise("Clean", Some(3), None, None, None, None, Single),
                         Exercise("Jerk", Some(1), None, None, None, None, Single)])
            == "3 Clean + 1 Jerk"
  {
    var cs := [Exercise("Clean", Some(3), None, None, None, None, Single),
               Exercise("Jerk", Some(1), None, None, None, None, Single)];
    CleanAndJerkMembers();
    ComplexNameOfTwo(cs, "3 Clean", "1 Jerk");
    JoinTwo("3 Clean", "1 Jerk", " + ");
    CleanAndJerkConcat();
  }

  lemma CleanAndJerkConcat()
    ensures "3 Clean" + " + " + "1 Jerk" == "3 Clean + 1 Jerk"
  {
  }

  lemma ComplexNameOfTwo(cs: seq<Exercise>, a: string, b: string)
    requires |cs| == 2 && Render(cs[0]) == a && Render(cs[1]) == b
    ensures ComplexName(cs) == Join([a, b], " + ")
  {
    assert cs[1..][1..] == [];
    assert Renders(cs) == [a, b];
  }

  /** A complex is named after its members, whatever name it was given:
      three cleans and a jerk make "3 Clean + 1 Jerk". */
  lemma CleanAndJerkExample()
    ensures var clean := Exercise("Clean", Some(3), None, None, None, None, Single);
            var jerk := Exercise("Jerk", Some(1), None, None, None, None, Single);
            var weight := Some(Measurement(Weight, Decimal(50, 0), "lb"));
            Make("Clean & Jerk", Some(5), weight, None, None, None, Complex([clean, jerk]))
              == Success(Exercise("3 Clean + 1 Jerk", Some(5), weight, None, None, None, Complex([clean, jerk])))
  {
    CleanAndJerkName();
  }

  /** `__str__` is the join of the kept parts. */
  lemma RenderFrom(e: Exercise, ps: seq<string>, kept: seq<string>)
    requires Parts(e) == ps && NonEmpty(ps) == kept
    ensures Render(e) == Join(kept, " ")
  {
  }

  lemma BoxJumpParts()
    ensures Parts(Exercise("Box Jump", Some(5), None, None, None,
                           Some(Measurement(Distance, Decimal(24, 0), "in")), Single))
            == ["", "5", "", "Box Jump", "", "24 in"]
  {
    var height := Measurement(Distance, Decimal(24, 0), "in");
    WholeText();
    assert Measurements.Render(height) == "24" + " " + "in";
    assert IntToString(5) == "5";
    assert RepsText(Some(5)) == "5";
    assert MeasurementText(Some(height)) == "24 in";
    assert DurationText(None) == "";
    assert MeasurementText(None) == "";
  }

  lemma BoxJumpKept()
    ensures NonEmpty(["", "5", "", "Box Jump", "", "24 in"]) == ["5", "Box Jump", "24 in"]
  {
    var ps := ["", "5", "", "Box Jump", "", "24 in"];
    NonEmptyCons("", ps[1..]);
    NonEmptyCons("5", ps[2..]);
    NonEmptyCons("", ps[3..]);
    NonEmptyCons("Box Jump", ps[4..]);
    NonEmptyCons("", ps[5..]);
    NonEmptyCons("24 in", []);
  }

  lemma BoxJumpJoin()
    ensures Join(["5", "Box Jump", "24 in"], " ") == "5 Box Jump 24 in"
  {
    assert Join(["Box Jump", "24 in"], " ") == "Box Jump 24 in";
  }

  /** Rendering puts the count before the name and the height after it. */
  lemma BoxJumpText()
    ensures Render(Exercise("Box Jump", Some(5), None, None, None,
                            Some(Measurement(Distance, Decimal(24, 0), "in")), Single))
            == "5 Box Jump 24 in"
  {
    var e := Exercise("Box Jump", Some(5), None, None, None,
                      Some(Measurement(Distance, Decimal(24, 0), "in")), Single);
    BoxJumpParts();
    BoxJumpKept();
    BoxJumpJoin();
    RenderFrom(e, ["", "5", "", "Box Jump", "", "24 in"], ["5", "Box Jump", "24 in"]);
  }

  lemma HandstandParts()
    ensures Parts(Exercise("Handstand Hold", None, None, Some(30), None, None, Single))
            == ["0:00:30", "", "", "Handstand Hold", "", ""]
  {
    HalfMinuteText();
  }

  lemma HandstandKept()
    ensures NonEmpty(["0:00:30", "", "", "Handstand Hold", "", ""]) == ["0:00:30", "Handstand Hold"]
  {
    var ps := ["0:00:30", "", "", "Handstand Hold", "", ""];
    NonEmptyCons("0:00:30", ps[1..]);
    NonEmptyCons("", ps[2..]);
    NonEmptyCons("", ps[3..]);
    NonEmptyCons("Handstand Hold", ps[4..]);
    assert NonEmpty(ps[4..]) == [];
  }

  lemma HandstandJoin()
    ensures Join(["0:00:30", "Handstand Hold"], " ") == "0:00:30 Handstand Hold"
  {
  }

  /** Rendering puts a duration first. */
  lemma HandstandText()
    ensures Render(Exercise("Handstand Hold", None, None, Some(30), None, None, Single))
            == "0:00:30 Handstand Hold"
  {
    var e := Exercise("Handstand Hold", None, None, Some(30), None, None, Single);
    HandstandParts();
    HandstandKept();
    HandstandJoin();
    RenderFrom(e, ["0:00:30", "", "", "Handstand Hold", "", ""], ["0:00:30", "Handstand Hold"]);
  }
}

=== FILE: measurement.dfy ===
/** `Measurement` and its two concrete classes `Distance` and `Weight`: a
    value together with the unit it was given in. The class is the category;
    the constructors reject units of the other category. */
module Measurements {
  import opened Wrappers
  import opened Errors
  import opened Text
  import opened Decimals
  import opened Units
  import opened Quantity

  /** A `Distance` (category `Distance`) or a `Weight` (category `Weight`)
      holding `value` in the unit named `unit`. */
  datatype Measurement = Measurement(cat: Category, value: Decimal, unit: string)

  /** What every constructed measurement satisfies: its unit belongs to its class. */
  predicate WellFormed(m: Measurement) {
    m.unit in UnitsOf(m.cat)
  }

  /** `Distance(value, unit)` / `Weight(value, unit)`: a unit outside the class's
      enumeration is rejected, whatever the other enumeration says. */
  function New(cat: Category, value: Decimal, unit: string): (r: Result<Measurement, Error>)
    ensures r.Success? <==> unit in UnitsOf(cat)
    ensures r.Success? ==> WellFormed(r.value) && r.value == Measurement(cat, value, unit)
    ensures r.Failure? ==> r.error == UnknownUnitError(unit)
  {
    if unit !in UnitsOf(cat) then Failure(UnknownUnitError(unit))
    else Success(Measurement(cat, value, unit))
  }

  /** The `Unit` record the constructor builds from the catalogue. */
  function UnitOf(m: Measurement): (u: Unit)
    requires WellFormed(m)
    ensures u.name == m.unit && u.inSi == Factor(m.unit) && u.inSi > 0.0
  {
    UnitFor(m.unit)
  }

  /** `si_value`: the value converted to metres or kilograms, that is the
      value times its unit's catalogue factor. A value given in the SI unit is
      unchanged, and conversion keeps the sign. */
  function SiValue(m: Measurement): (r: real)
    requires WellFormed(m)
    ensures r == ToReal(m.value) * Factor(m.unit)
    ensures m.unit == SiUnit(m.cat) ==> r == ToReal(m.value)
    ensures r > 0.0 <==> m.value.mantissa > 0
    ensures r == 0.0 <==> m.value.mantissa == 0
  {
    SiFactorIsOne(m.cat);
    SignOfValue(m.value);
    ToSiScales(UnitOf(m), ToReal(m.value));
    UnitOf(m).ToSi(ToReal(m.value))
  }

  /** `__eq__`: the same class and the same SI value. Between different classes
      Python falls back to identity, which two distinct objects never share. */
  function Equal(a: Measurement, b: Measurement): (r: bool)
    requires WellFormed(a) && WellFormed(b)
    ensures r <==> a.cat == b.cat && SiValue(a) == SiValue(b)
    ensures a.cat == b.cat && a.unit == b.unit ==> (r <==> ToReal(a.value) == ToReal(b.value))
  {
    if a.cat != b.cat then
      false
    else
      ScaleCancels(ToReal(a.value), ToReal(b.value), Factor(a.unit));
      SiUnit(a.cat) == SiUnit(b.cat) && SiValue(a) == SiValue(b)
  }

  /** `__str__`: the value's text, one space, and the unit symbol as given
      (no conversion to SI). */
  function Render(m: Measurement): (s: string)
    ensures |s| > |m.unit| && s[|s| - |m.unit|..] == m.unit && s[|s| - |m.unit| - 1] == ' '
  {
    Decimals.Render(m.value) + " " + m.unit
  }

  /** `from_str`: the tokenizer, then the class's constructor. A symbol of the
      other category passes the tokenizer and is rejected by the constructor. */
  function FromStr(cat: Category, s: string): (r: Result<Measurement, Error>)
    ensures r.Success? ==> WellFormed(r.value) && r.value.cat == cat && r.value.value.mantissa >= 0
    ensures r.Success? <==> GetValueAndUnit(s).Success? && GetValueAndUnit(s).value.1 in UnitsOf(cat)
    ensures GetValueAndUnit(s).Failure? ==> r == Failure(GetValueAndUnit(s).error)
    ensures GetValueAndUnit(s).Success? && r.Failure? ==> r.error == UnknownUnitError(GetValueAndUnit(s).value.1)
    ensures r.Success? ==> r.value.value == GetValueAndUnit(s).value.0 && r.value.unit == GetValueAndUnit(s).value.1
  {
    var (value, unit) :- GetValueAndUnit(s);
    New(cat, value, unit)
  }

  // ---------------------------------------------------------------------------
  // Arithmetic helpers
  // ---------------------------------------------------------------------------

  lemma {:induction false} SignOfValue(d: Decimal)
    ensures ToReal(d) > 0.0 <==> d.mantissa > 0
    ensures ToReal(d) == 0.0 <==> d.mantissa == 0
    decreases d.scale
  {
    if d.scale > 0 {
      SignOfValue(Decimal(d.mantissa, d.scale - 1));
    }
  }

  lemma SiFactorIsOne(c: Category)
    ensures SiUnit(c) in UnitsOf(c) && Factor(SiUnit(c)) == 1.0
  {
  }

  lemma ToSiScales(u: Unit, v: real)
    ensures u.ToSi(v) == v * u.inSi
  {
  }

  lemma ScaleCancels(x: real, y: real, f: real)
    requires f > 0.0
    ensures x * f == y * f <==> x == y
  {
    if x * f == y * f {
      assert (x - y) * f == 0.0;
    }
  }

  // ---------------------------------------------------------------------------
  // Lemmas
  // ---------------------------------------------------------------------------

  /** Equality is an equivalence relation on constructed measurements. */
  lemma EqualIsEquivalence(a: Measurement, b: Measurement, c: Measurement)
    requires WellFormed(a) && WellFormed(b) && WellFormed(c)
    ensures Equal(a, a)
    ensures Equal(a, b) ==> Equal(b, a)
    ensures Equal(a, b) && Equal(b, c) ==> Equal(a, c)
  {
  }

  /** Two measurements of one class are equal exactly when converting the
      first one's SI value into the second one's unit gives the second one's
      value: "1 m" equals "100 cm" because 1 m is 100 cm. */
  lemma EqualByConversion(a: Measurement, b: Measurement)
    requires WellFormed(a) && WellFormed(b) && a.cat == b.cat
    ensures Equal(a, b) <==> UnitOf(b).FromSi(SiValue(a)) == Success(ToReal(b.value))
  {
    var x, sb, y, f := SiValue(a), SiValue(b), ToReal(b.value), Factor(b.unit);
    assert sb == y * f;
    assert Equal(a, b) <==> x == sb;
    assert UnitOf(b).inSi == f;
    ConversionStep(Equal(a, b), x, sb, y, f, UnitOf(b));
  }

  /** The arithmetic of `EqualByConversion`, on plain values. */
  lemma ConversionStep(eq: bool, x: real, sb: real, y: real, f: real, u: Unit)
    requires u.inSi == f && f > 0.0
    requires eq <==> x == sb
    requires sb == y * f
    ensures eq <==> u.FromSi(x) == Success(y)
  {
    assert u.FromSi(x) == Success(x / f);
    if x / f == y {
      assert x == (x / f) * f;
    }
  }

  /** A distance never equals a weight, whatever their values. */
  lemma DistanceNeverWeight(a: Measurement, b: Measurement)
    requires WellFormed(a) && WellFormed(b)
    requires a.cat == Distance && b.cat == Weight
    ensures !Equal(a, b) && !Equal(b, a)
  {
  }

  /** `si_value` applies the unit's factor: 2 ft is 0.6096 m, 2 pood is 32 kg. */
  lemma SiExamples()
    ensures SiValue(Measurement(Distance, Decimal(2, 0), "ft")) == 0.6096
    ensures SiValue(Measurement(Weight, Decimal(2, 0), "pood")) == 32.0
  {
    assert ToReal(Decimal(2, 0)) == 2.0;
  }

  /** Equality compares amounts, not notation: 1 m equals 100 cm. */
  lemma MetreIsHundredCentimetres()
    ensures Equal(Measurement(Distance, Decimal(1, 0), "m"), Measurement(Distance, Decimal(100, 0), "cm"))
  {
    var a := Measurement(Distance, Decimal(1, 0), "m");
    var b := Measurement(Distance, Decimal(100, 0), "cm");
    assert ToReal(a.value) == 1.0 && ToReal(b.value) == 100.0;
    EqualByConversion(a, b);
    assert UnitOf(b).FromSi(SiValue(a)) == Success(1.0 / 0.01);
  }

  /** 1 km equals 1000 m. */
  lemma KilometreIsThousandMetres()
    ensures Equal(Measurement(Distance, Decimal(1, 0), "km"), Measurement(Distance, Decimal(1000, 0), "m"))
  {
    assert ToReal(Decimal(1, 0)) == 1.0;
    assert ToReal(Decimal(1000, 0)) == 1000.0;
  }

  /** The same number in different units is a different amount: 1 m is not 1 ft. */
  lemma MetreIsNotFoot()
    ensures !Equal(Measurement(Distance, Decimal(1, 0), "m"), Measurement(Distance, Decimal(1, 0), "ft"))
  {
    assert ToReal(Decimal(1, 0)) == 1.0;
  }

  /** The rendering of a measurement with a non-negative value reads back, in
      its own class, as the same measurement: same value digit for digit, same
      unit symbol. */
  lemma {:induction false} FromStrRender(m: Measurement)
    requires WellFormed(m) && m.value.mantissa >= 0
    ensures FromStr(m.cat, Render(m)) == Success(m)
  {
    var num := Decimals.Render(m.value);
    RenderRoundTrip(m.value);
    assert Render(m) == [] + num + " " + m.unit;
    FromStrOf(m.cat, [], num, m.unit);
  }

  /** The tokenizer reads no sign: a negative measurement's rendering reads back
      as its magnitude ("-2.5 m" gives 2.5 m). */
  lemma {:induction false} FromStrDropsSign(m: Measurement)
    requires WellFormed(m) && m.value.mantissa < 0
    ensures FromStr(m.cat, Render(m)) == Success(Measurement(m.cat, Decimal(-m.value.mantissa, m.value.scale), m.unit))
  {
    var num := RenderUnsigned(-m.value.mantissa, m.value.scale);
    RenderUnsignedRoundTrip(-m.value.mantissa, m.value.scale);
    RenderNegative(m);
    MinusSeparates();
    FromStrOf(m.cat, "-", num, m.unit);
  }

  lemma RenderNegative(m: Measurement)
    requires m.value.mantissa < 0
    ensures Render(m) == "-" + RenderUnsigned(-m.value.mantissa, m.value.scale) + " " + m.unit
  {
    var text := Decimals.Render(m.value);
    assert text == "-" + RenderUnsigned(-m.value.mantissa, m.value.scale);
    assert Render(m) == text + " " + m.unit;
  }

  /** Neither scan reads a minus sign. */
  lemma MinusSeparates()
    ensures AllSeparators("-")
  {
    assert IsSeparator('-');
  }

  /** A literal after separators, then one space and a symbol of the class,
      reads as that measurement. */
  lemma FromStrOf(cat: Category, pre: string, num: string, unit: string)
    requires AllSeparators(pre) && IsNumberLiteral(num) && unit in UnitsOf(cat)
    ensures FromStr(cat, pre + num + " " + unit) == Success(Measurement(cat, ParseLiteral(num), unit))
  {
    KnownUnitIsWord(unit);
    assert pre + num + " " + unit == pre + num + " " + unit + [];
    QuantityTextParses(pre, num, " ", unit, []);
  }

  /** A quantity whose symbol belongs to the other class is rejected by the
      class even though the tokenizer accepts it: `Weight.from_str("5 m")`. */
  lemma {:induction false} WrongCategoryFails(cat: Category, pre: string, num: string, mid: string, w: string, post: string)
    requires AllSeparators(pre) && AllSeparators(mid) && AllSeparators(post)
    requires IsNumberLiteral(num) && IsKnownUnit(w) && w !in UnitsOf(cat)
    ensures FromStr(cat, pre + num + mid + w + post) == Failure(UnknownUnitError(w))
  {
    KnownUnitIsWord(w);
    QuantityTextParses(pre, num, mid, w, post);
  }

  /** The example the test suite uses. */
  lemma WeightOfMetresFails()
    ensures FromStr(Weight, "5 m") == Failure(UnknownUnitError("m"))
  {
    LiteralShapes("5", []);
    assert "5" + [] == "5";
    assert "5 m" == [] + "5" + " " + "m" + [];
    WrongCategoryFails(Weight, [], "5", " ", "m", []);
  }
}

=== FILE: quantity.dfy ===
/** The free-text quantity tokenizer `get_value_and_unit`: the two
    `re.findall` scans it runs and the checks it makes on their results. */
module Quantity {
  import opened Wrappers
  import opened Errors
  import opened Text
  import opened Decimals
  import opened Units

  /** A whole match of `[^\d\W]+`. */
  predicate IsUnitWord(w: string) {
    |w| > 0 && forall i :: 0 <= i < |w| ==> IsUnitChar(w[i])
  }

  /** A character neither regular expression can start or continue a match on. */
  predicate IsSeparator(c: char) {
    !IsDigit(c) && !IsUnitChar(c) && c != '.'
  }

  predicate AllSeparators(s: string) {
    forall i :: 0 <= i < |s| ==> IsSeparator(s[i])
  }

  predicate NoDigits(s: string) {
    forall i :: 0 <= i < |s| ==> !IsDigit(s[i])
  }

  predicate NoUnitChars(s: string) {
    forall i :: 0 <= i < |s| ==> !IsUnitChar(s[i])
  }

  // ---------------------------------------------------------------------------
  // Match counts, read off character by character
  // ---------------------------------------------------------------------------

  /** Where a left-to-right reading of `\d+\.?\d*` stands: outside a match,
      in its whole digits, or past its point. */
  datatype ScanState = Outside | Whole | Fraction

  /** How many matches of `\d+\.?\d*` the text holds: one for each digit read
      outside a match. A digit continues the match it is in, a point after
      the whole digits moves past the point, and anything else ends the match. */
  function NumberCount(s: string, st: ScanState): nat
    decreases |s|
  {
    if s == [] then 0
    else if IsDigit(s[0]) then
      (if st == Outside then 1 else 0) + NumberCount(s[1..], if st == Outside then Whole else st)
    else if s[0] == '.' && st == Whole then NumberCount(s[1..], Fraction)
    else NumberCount(s[1..], Outside)
  }

  /** How many maximal runs of letters and underscores the text holds: one for
      each such character that does not follow another; `inWord` says whether
      the character before `s` was one. */
  function WordCount(s: string, inWord: bool): nat
    decreases |s|
  {
    if s == [] then 0
    else (if IsUnitChar(s[0]) && !inWord then 1 else 0) + WordCount(s[1..], IsUnitChar(s[0]))
  }

  // ---------------------------------------------------------------------------
  // The two scans
  // ---------------------------------------------------------------------------

  /** The greedy match of `\d+\.?\d*` at the start of `s`, which starts with a digit. */
  function NumberMatch(s: string): (t: string)
    requires s != [] && IsDigit(s[0])
    ensures 1 <= |t| <= |s| && t == s[..|t|]
    ensures IsNumberLiteral(t)
    ensures |t| < |s| ==> !IsDigit(s[|t|]) && (s[|t|] == '.' ==> '.' in t)
  {
    var whole := DigitRun(s);
    var k := |whole|;
    if k < |s| && s[k] == '.' then
      var frac := DigitRun(s[k + 1..]);
      LiteralShapes(whole, frac);
      assert s[..k + 1 + |frac|] == whole + "." + frac;
      whole + "." + frac
    else
      LiteralShapes(whole, []);
      whole
  }

  /** `re.findall(r"\d+\.?\d*", s)`: scanning left to right, each digit starts
      a greedy match and everything else is skipped. Every match is a number
      literal. */
  function NumberTokens(s: string): (ts: seq<string>)
    ensures forall i :: 0 <= i < |ts| ==> IsNumberLiteral(ts[i])
    decreases |s|
  {
    if s == [] then
      []
    else if IsDigit(s[0]) then
      var t := NumberMatch(s);
      var rest := NumberTokens(s[|t|..]);
      AllLiteralsCons(t, rest);
      [t] + rest
    else
      NumberTokens(s[1..])
  }

  /** The number tokens together hold every digit of `s`, in order: no digit is skipped. */
  lemma {:induction false} NumberTokensKeepDigits(s: string)
    ensures Filter(IsDigit, Concat(NumberTokens(s))) == Filter(IsDigit, s)
    decreases |s|
  {
    if s != [] {
      if IsDigit(s[0]) {
        var t := NumberMatch(s);
        var rest := s[|t|..];
        assert NumberTokens(s) == [t] + NumberTokens(rest);
        NumberTokensKeepDigits(rest);
        KeepDigitsStep(t, rest, NumberTokens(rest));
        assert s == t + rest;
      } else {
        assert NumberTokens(s) == NumberTokens(s[1..]);
        assert Filter(IsDigit, s) == Filter(IsDigit, s[1..]);
        NumberTokensKeepDigits(s[1..]);
      }
    }
  }

  lemma KeepDigitsStep(t: string, rest: string, ts: seq<string>)
    requires Filter(IsDigit, Concat(ts)) == Filter(IsDigit, rest)
    ensures Filter(IsDigit, Concat([t] + ts)) == Filter(IsDigit, t + rest)
  {
    assert ([t] + ts)[0] == t && ([t] + ts)[1..] == ts;
    FilterAppend(IsDigit, t, rest);
    FilterAppend(IsDigit, t, Concat(ts));
  }

  lemma AllLiteralsCons(t: string, rest: seq<string>)
    requires IsNumberLiteral(t)
    requires forall i :: 0 <= i < |rest| ==> IsNumberLiteral(rest[i])
    ensures forall i :: 0 <= i < |[t] + rest| ==> IsNumberLiteral(([t] + rest)[i])
  {
    forall i | 0 <= i < |[t] + rest|
      ensures IsNumberLiteral(([t] + rest)[i])
    {
      if i > 0 {
        assert ([t] + rest)[i] == rest[i - 1];
      }
    }
  }

  /** The leading run of letters and underscores of `s`. */
  function LetterRun(s: string): (w: string)
    ensures |w| <= |s| && w == s[..|w|]
    ensures forall i :: 0 <= i < |w| ==> IsUnitChar(w[i])
    ensures |w| < |s| ==> !IsUnitChar(s[|w|])
    ensures s != [] && IsUnitChar(s[0]) ==> |w| > 0
  {
    if s != [] && IsUnitChar(s[0]) then [s[0]] + LetterRun(s[1..]) else []
  }

  /** `re.findall(r"[^\d\W]+", s)`: the maximal runs of letters and
      underscores. */
  function WordTokens(s: string): (ts: seq<string>)
    ensures forall i :: 0 <= i < |ts| ==> IsUnitWord(ts[i])
    decreases |s|
  {
    if s == [] then
      []
    else if IsUnitChar(s[0]) then
      var w := LetterRun(s);
      var ts := [w] + WordTokens(s[|w|..]);
      assert ts[1..] == WordTokens(s[|w|..]);
      ts
    else
      WordTokens(s[1..])
  }

  /** The word tokens together are exactly the letters and underscores of `s`, in order. */
  lemma {:induction false} WordTokensKeepLetters(s: string)
    ensures Concat(WordTokens(s)) == Filter(IsUnitChar, s)
    decreases |s|
  {
    if s != [] {
      if IsUnitChar(s[0]) {
        var w := LetterRun(s);
        var ts := [w] + WordTokens(s[|w|..]);
        assert ts[1..] == WordTokens(s[|w|..]);
        assert s == w + s[|w|..];
        FilterAppend(IsUnitChar, w, s[|w|..]);
        AllFilter(IsUnitChar, w);
        WordTokensKeepLetters(s[|w|..]);
      } else {
        WordTokensKeepLetters(s[1..]);
      }
    }
  }

  lemma {:induction false} AllFilter(p: char -> bool, w: string)
    requires forall i :: 0 <= i < |w| ==> p(w[i])
    ensures Filter(p, w) == w
  {
    if w != [] {
      AllFilter(p, w[1..]);
    }
  }

  /** The word scan finds exactly as many words as the text has runs of
      letters and underscores. */
  lemma {:induction false} WordTokensCount(s: string)
    ensures |WordTokens(s)| == WordCount(s, false)
    decreases |s|
  {
    if s != [] {
      if IsUnitChar(s[0]) {
        var w := LetterRun(s);
        assert s == w + s[|w|..];
        WordRunCount(w, s[|w|..]);
        WordTokensCount(s[|w|..]);
      } else {
        WordTokensCount(s[1..]);
      }
    }
  }

  /** The number scan finds exactly as many literals as a left-to-right reading
      of the pattern counts matches. */
  lemma {:induction false} NumberTokensCount(s: string)
    ensures |NumberTokens(s)| == NumberCount(s, Outside)
    decreases |s|
  {
    if s != [] {
      if IsDigit(s[0]) {
        NumberMatchCount(s);
        NumberTokensCount(s[|NumberMatch(s)|..]);
      } else {
        NumberTokensCount(s[1..]);
      }
    }
  }

  /** A run of letters ended by a non-letter is one word, and counting goes on
      after it as at the start of a text. */
  lemma WordRunCount(w: string, rest: string)
    requires IsUnitWord(w)
    requires rest == [] || !IsUnitChar(rest[0])
    ensures WordCount(w + rest, false) == 1 + WordCount(rest, false)
  {
    assert (w + rest)[0] == w[0] && (w + rest)[1..] == w[1..] + rest;
    InsideWord(w[1..], rest);
  }

  lemma {:induction false} InsideWord(v: string, rest: string)
    requires forall i :: 0 <= i < |v| ==> IsUnitChar(v[i])
    requires rest == [] || !IsUnitChar(rest[0])
    ensures WordCount(v + rest, true) == WordCount(rest, false)
  {
    if v == [] {
      assert v + rest == rest;
    } else {
      assert (v + rest)[0] == v[0] && (v + rest)[1..] == v[1..] + rest;
      InsideWord(v[1..], rest);
    }
  }

  /** Digits inside a match leave the count and the state as they are. */
  lemma {:induction false} InsideNumber(ds: string, rest: string, st: ScanState)
    requires AllDigits(ds) && st != Outside
    ensures NumberCount(ds + rest, st) == NumberCount(rest, st)
  {
    if ds == [] {
      assert ds + rest == rest;
    } else {
      assert (ds + rest)[0] == ds[0] && (ds + rest)[1..] == ds[1..] + rest;
      InsideNumber(ds[1..], rest, st);
    }
  }

  /** The greedy match at a digit is one match, and counting goes on after it
      as outside any match. */
  lemma NumberMatchCount(s: string)
    requires s != [] && IsDigit(s[0])
    ensures NumberCount(s, Outside) == 1 + NumberCount(s[|NumberMatch(s)|..], Outside)
  {
    var k := |DigitRun(s)|;
    TakeDrop(s, k);
    WholeDigitsCount(DigitRun(s), s[k..]);
    if k < |s| && s[k] == '.' {
      FractionMatchLength(s, k);
      PointTailCount(s, k, |NumberMatch(s)|);
    } else {
      assert NumberMatch(s) == DigitRun(s);
    }
  }

  lemma FractionMatchLength(s: string, k: nat)
    requires s != [] && IsDigit(s[0])
    requires k == |DigitRun(s)| && k < |s| && s[k] == '.'
    ensures |NumberMatch(s)| == k + 1 + |DigitRun(s[k + 1..])|
  {
  }

  /** From a point at `k`, the digits after it add nothing, and counting goes
      on after them as outside any match. */
  lemma PointTailCount(s: string, k: nat, n: nat)
    requires k < |s| && s[k] == '.' && n == k + 1 + |DigitRun(s[k + 1..])|
    ensures NumberCount(s[k..], Whole) == NumberCount(s[n..], Outside)
  {
    var u := s[k..];
    var tail := s[k + 1..];
    var frac := DigitRun(tail);
    var rest := tail[|frac|..];
    DropDrop(s, k, 1);
    TakeDrop(tail, |frac|);
    PointDigitsCount(u, frac, rest);
    DropDrop(s, k + 1, |frac|);
    LeaveFraction(rest);
  }

  /** The whole digits of a match count one and leave the reading in them. */
  lemma WholeDigitsCount(ds: string, rest: string)
    requires |ds| >= 1 && AllDigits(ds)
    ensures NumberCount(ds + rest, Outside) == 1 + NumberCount(rest, Whole)
  {
    assert (ds + rest)[0] == ds[0] && (ds + rest)[1..] == ds[1..] + rest;
    InsideNumber(ds[1..], rest, Whole);
  }

  /** A point and the digits after it add nothing and leave the reading past the point. */
  lemma PointDigitsCount(u: string, frac: string, rest: string)
    requires u != [] && u[0] == '.' && u[1..] == frac + rest
    requires AllDigits(frac)
    ensures NumberCount(u, Whole) == NumberCount(rest, Fraction)
  {
    InsideNumber(frac, rest, Fraction);
  }

  lemma DropDrop<T>(x: seq<T>, a: nat, b: nat)
    requires a + b <= |x|
    ensures x[a..][b..] == x[a + b..]
  {
  }

  lemma TakeDrop<T>(x: seq<T>, n: nat)
    requires n <= |x|
    ensures x == x[..n] + x[n..]
  {
  }

  lemma LeaveFraction(rest: string)
    requires rest == [] || !IsDigit(rest[0])
    ensures NumberCount(rest, Fraction) == NumberCount(rest, Outside)
  {
  }

  // ---------------------------------------------------------------------------
  // get_value_and_unit
  // ---------------------------------------------------------------------------

  /** `get_value_and_unit(s)`: exactly one number (checked first), exactly one
      word, and the word must be a symbol of either enumeration. The unit is
      returned as written; its category is left to the measurement constructor. */
  function GetValueAndUnit(s: string): (r: Result<(Decimal, string), Error>)
    ensures NoDigits(s) ==> r == Failure(ValueError(NotOneNumber))
    ensures r.Success? ==> IsKnownUnit(r.value.1) && r.value.0.mantissa >= 0
    ensures r.Failure? && r.error.UnknownUnitError? ==> !IsKnownUnit(r.error.unit)
  {
    NoDigitsNoNumbers(s);
    var values := NumberTokens(s);
    if |values| != 1 then
      Failure(ValueError(NotOneNumber))
    else
      var units := WordTokens(s);
      if |units| != 1 then
        Failure(ValueError(NotOneUnit))
      else if !IsKnownUnit(units[0]) then
        Failure(UnknownUnitError(units[0]))
      else
        Success((ParseLiteral(values[0]), units[0]))
  }

  // ---------------------------------------------------------------------------
  // Lemmas
  // ---------------------------------------------------------------------------

  /** Every catalogue symbol is one word token. */
  lemma KnownUnitIsWord(u: string)
    requires IsKnownUnit(u)
    ensures IsUnitWord(u)
  {
  }

  lemma {:induction false} NoDigitsNoNumbers(s: string)
    ensures NoDigits(s) ==> NumberTokens(s) == []
  {
    if s != [] && NoDigits(s) {
      NoDigitsNoNumbers(s[1..]);
    }
  }

  /** Text without digits in front of the rest contributes no number token. */
  lemma {:induction false} NumberTokensSkip(a: string, b: string)
    requires NoDigits(a)
    ensures NumberTokens(a + b) == NumberTokens(b)
  {
    if a == [] {
      assert a + b == b;
    } else {
      assert (a + b)[1..] == a[1..] + b;
      NumberTokensSkip(a[1..], b);
    }
  }

  /** Text without letters in front of the rest contributes no word token. */
  lemma {:induction false} WordTokensSkip(a: string, b: string)
    requires NoUnitChars(a)
    ensures WordTokens(a + b) == WordTokens(b)
  {
    if a == [] {
      assert a + b == b;
    } else {
      assert (a + b)[1..] == a[1..] + b;
      WordTokensSkip(a[1..], b);
    }
  }

  /** A literal followed by neither a digit nor a point is matched whole. */
  lemma NumberMatchOf(num: string, rest: string)
    requires IsNumberLiteral(num)
    requires rest == [] || (!IsDigit(rest[0]) && rest[0] != '.')
    ensures NumberMatch(num + rest) == num
  {
    var k := |DigitRun(num)|;
    if k == |num| {
      NumberMatchWhole(num, rest);
    } else {
      var whole := num[..k];
      var frac := num[k + 1..];
      assert num == whole + "." + frac;
      NumberMatchFraction(whole, frac, rest);
    }
  }

  lemma NumberMatchWhole(whole: string, rest: string)
    requires |whole| >= 1 && AllDigits(whole)
    requires rest == [] || (!IsDigit(rest[0]) && rest[0] != '.')
    ensures NumberMatch(whole + rest) == whole
  {
    DigitRunAll(whole, rest);
  }

  lemma NumberMatchFraction(whole: string, frac: string, rest: string)
    requires |whole| >= 1 && AllDigits(whole) && AllDigits(frac)
    requires rest == [] || (!IsDigit(rest[0]) && rest[0] != '.')
    ensures NumberMatch(whole + "." + frac + rest) == whole + "." + frac
  {
    var tail := "." + frac + rest;
    var s := whole + tail;
    assert whole + "." + frac + rest == s;
    DigitRunAll(whole, tail);
    var k := |whole|;
    assert s[k] == '.';
    assert s[k + 1..] == frac + rest;
    DigitRunAll(frac, rest);
  }

  /** A word followed by a non-letter is one word token. */
  lemma {:induction false} LetterRunOf(w: string, rest: string)
    requires forall i :: 0 <= i < |w| ==> IsUnitChar(w[i])
    requires rest == [] || !IsUnitChar(rest[0])
    ensures LetterRun(w + rest) == w
  {
    if w != [] {
      assert (w + rest)[1..] == w[1..] + rest;
      LetterRunOf(w[1..], rest);
    }
  }

  /** The number tokens of a literal followed by digit-free text. */
  lemma NumberThenNoDigits(num: string, rest: string)
    requires IsNumberLiteral(num)
    requires NoDigits(rest) && (rest == [] || rest[0] != '.')
    ensures NumberTokens(num + rest) == [num]
  {
    NumberMatchOf(num, rest);
    assert (num + rest)[|num|..] == rest;
    NoDigitsNoNumbers(rest);
  }

  /** The word tokens of a word followed by letter-free text. */
  lemma WordThenNoLetters(w: string, rest: string)
    requires IsUnitWord(w)
    requires NoUnitChars(rest)
    ensures WordTokens(w + rest) == [w]
  {
    LetterRunOf(w, rest);
    assert (w + rest)[|w|..] == rest;
    WordTokensSkip(rest, []);
    assert rest + [] == rest;
  }

  /** The tokens of a literal, then a word, with any characters that are
      neither digits, letters, underscores nor points around and between them. */
  lemma NumberFirstTokens(pre: string, num: string, mid: string, w: string, post: string)
    requires AllSeparators(pre) && AllSeparators(mid) && AllSeparators(post)
    requires IsNumberLiteral(num) && IsUnitWord(w)
    ensures NumberTokens(pre + num + mid + w + post) == [num]
    ensures WordTokens(pre + num + mid + w + post) == [w]
  {
    NumberFirstNumbers(pre, num, mid, w, post);
    NumberFirstWords(pre, num, mid, w, post);
  }

  lemma NumberFirstNumbers(pre: string, num: string, mid: string, w: string, post: string)
    requires AllSeparators(pre) && AllSeparators(mid) && AllSeparators(post)
    requires IsNumberLiteral(num) && IsUnitWord(w)
    ensures NumberTokens(pre + num + mid + w + post) == [num]
  {
    var tail := mid + w + post;
    assert pre + num + mid + w + post == pre + (num + tail);
    SeparatorsAppend(mid, w, post);
    NumberTokensSkip(pre, num + tail);
    NumberThenNoDigits(num, tail);
  }

  lemma NumberFirstWords(pre: string, num: string, mid: string, w: string, post: string)
    requires AllSeparators(pre) && AllSeparators(mid) && AllSeparators(post)
    requires IsNumberLiteral(num) && IsUnitWord(w)
    ensures WordTokens(pre + num + mid + w + post) == [w]
  {
    var lead := pre + num + mid;
    LiteralChars(num);
    NoUnitCharsAppend(pre, num, mid);
    assert pre + num + mid + w + post == lead + (w + post);
    WordTokensSkip(lead, w + post);
    WordThenNoLetters(w, post);
  }

  /** The same with the word first. */
  lemma UnitFirstTokens(pre: string, num: string, mid: string, w: string, post: string)
    requires AllSeparators(pre) && AllSeparators(mid) && AllSeparators(post)
    requires IsNumberLiteral(num) && IsUnitWord(w)
    ensures NumberTokens(pre + w + mid + num + post) == [num]
    ensures WordTokens(pre + w + mid + num + post) == [w]
  {
    UnitFirstNumbers(pre, num, mid, w, post);
    UnitFirstWords(pre, num, mid, w, post);
  }

  lemma UnitFirstNumbers(pre: string, num: string, mid: string, w: string, post: string)
    requires AllSeparators(pre) && AllSeparators(mid) && AllSeparators(post)
    requires IsNumberLiteral(num) && IsUnitWord(w)
    ensures NumberTokens(pre + w + mid + num + post) == [num]
  {
    var lead := pre + w + mid;
    NoDigitsAppend(pre, w, mid);
    assert pre + w + mid + num + post == lead + (num + post);
    NumberTokensSkip(lead, num + post);
    NumberThenNoDigits(num, post);
  }

  lemma UnitFirstWords(pre: string, num: string, mid: string, w: string, post: string)
    requires AllSeparators(pre) && AllSeparators(mid) && AllSeparators(post)
    requires IsNumberLiteral(num) && IsUnitWord(w)
    ensures WordTokens(pre + w + mid + num + post) == [w]
  {
    var tail := mid + num + post;
    LiteralChars(num);
    NoUnitCharsAppend(mid, num, post);
    assert pre + w + mid + num + post == pre + (w + tail);
    WordTokensSkip(pre, w + tail);
    WordThenNoLetters(w, tail);
  }

  /** The outcome for one number token and one word token: the word is
      looked up in the catalogue. */
  lemma OneOfEach(s: string, num: string, w: string)
    requires IsNumberLiteral(num)
    requires NumberTokens(s) == [num] && WordTokens(s) == [w]
    ensures GetValueAndUnit(s) ==
              if IsKnownUnit(w) then Success((ParseLiteral(num), w)) else Failure(UnknownUnitError(w))
  {
  }

  /** Token order and separators do not matter: a literal and a word, in
      either order, surrounded and separated by any characters that are
      neither digits, letters, underscores nor points, read as that literal's
      value and that word when the word is a catalogue symbol ("150lb",
      "2 pood", "mile 1.6", "ft3.2"), and fail with `UnknownUnitError`
      naming the word otherwise ("200 NotAUnit"). */
  lemma QuantityTextParses(pre: string, num: string, mid: string, w: string, post: string)
    requires AllSeparators(pre) && AllSeparators(mid) && AllSeparators(post)
    requires IsNumberLiteral(num) && IsUnitWord(w)
    ensures GetValueAndUnit(pre + num + mid + w + post) ==
              if IsKnownUnit(w) then Success((ParseLiteral(num), w)) else Failure(UnknownUnitError(w))
    ensures GetValueAndUnit(pre + w + mid + num + post) ==
              if IsKnownUnit(w) then Success((ParseLiteral(num), w)) else Failure(UnknownUnitError(w))
  {
    NumberFirstTokens(pre, num, mid, w, post);
    OneOfEach(pre + num + mid + w + post, num, w);
    UnitFirstTokens(pre, num, mid, w, post);
    OneOfEach(pre + w + mid + num + post, num, w);
  }

  /** Two literals separated by text that holds no digit and does not start
      with a point fail on the number count, whatever else the text holds
      ("100 lb 2"). */
  lemma TwoNumbersFail(pre: string, n1: string, mid: string, n2: string, post: string)
    requires NoDigits(pre) && NoDigits(mid) && |mid| > 0 && mid[0] != '.'
    requires IsNumberLiteral(n1) && IsNumberLiteral(n2)
    ensures GetValueAndUnit(pre + n1 + mid + n2 + post) == Failure(ValueError(NotOneNumber))
  {
    var tail2 := n2 + post;
    var tail1 := mid + tail2;
    var rest := n1 + tail1;
    assert pre + n1 + mid + n2 + post == pre + rest;
    NumberTokensSkip(pre, rest);
    assert tail1[0] == mid[0];
    NumberTokensCons(n1, tail1);
    NumberTokensSkip(mid, tail2);
    NumberTokensStart(n2, post);
  }

  /** Text that starts with a literal yields at least one number token. */
  lemma NumberTokensStart(n: string, post: string)
    requires IsNumberLiteral(n)
    ensures |NumberTokens(n + post)| >= 1
  {
    assert DigitRun(n)[0] == n[0];
    assert (n + post)[0] == n[0];
  }

  /** The failures of `get_value_and_unit` read off the match counts alone:
      any number count but one fails on the number, and with one number any
      word count but one fails on the unit, wherever in the text they lie. */
  lemma CountedFailures(s: string)
    ensures NumberCount(s, Outside) != 1 ==> GetValueAndUnit(s) == Failure(ValueError(NotOneNumber))
    ensures NumberCount(s, Outside) == 1 && WordCount(s, false) != 1 ==>
              GetValueAndUnit(s) == Failure(ValueError(NotOneUnit))
    ensures GetValueAndUnit(s).Success? ==> NumberCount(s, Outside) == 1 && WordCount(s, false) == 1
  {
    NumberTokensCount(s);
    WordTokensCount(s);
  }

  /** A word before the number and one after it fail on the word count. */
  lemma WordsAroundNumberFail()
    ensures GetValueAndUnit("kg 10 m") == Failure(ValueError(NotOneUnit))
  {
    var s := "kg 10 m";
    assert NumberCount(s, Outside) == 1 && WordCount(s, false) == 2;
    CountedFailures(s);
  }

  /** Two words before the number fail on the word count. */
  lemma WordsBeforeNumberFail()
    ensures GetValueAndUnit("kg m 10") == Failure(ValueError(NotOneUnit))
  {
    var s := "kg m 10";
    assert NumberCount(s, Outside) == 1 && WordCount(s, false) == 2;
    CountedFailures(s);
  }

  /** Two numbers fail on the number count before the words are looked at. */
  lemma PointRunsFail()
    ensures GetValueAndUnit("1..2 m") == Failure(ValueError(NotOneNumber))
  {
    var s := "1..2 m";
    assert NumberCount(s, Outside) == 2;
    CountedFailures(s);
  }

  /** One literal and two words, all separated by characters that are neither
      digits, letters, underscores nor points, fail on the word count
      ("10 kg m"), whether or not the words are catalogue symbols. */
  lemma TwoWordsFail(pre: string, num: string, mid: string, w1: string, sep: string, w2: string, post: string)
    requires AllSeparators(pre) && AllSeparators(mid) && AllSeparators(sep) && AllSeparators(post)
    requires |sep| > 0
    requires IsNumberLiteral(num) && IsUnitWord(w1) && IsUnitWord(w2)
    ensures GetValueAndUnit(pre + num + mid + w1 + sep + w2 + post) == Failure(ValueError(NotOneUnit))
  {
    var s := pre + num + mid + w1 + sep + w2 + post;
    OneNumberBeforeWords(pre, num, mid, w1, sep, w2, post);
    TwoWordTokens(pre + num + mid, w1, sep, w2, post);
    LiteralChars(num);
    NoUnitCharsAppend(pre, num, mid);
    assert s == (pre + num + mid) + w1 + sep + w2 + post;
  }

  /** The number scan of the text `TwoWordsFail` reads finds the one literal. */
  lemma OneNumberBeforeWords(pre: string, num: string, mid: string, w1: string, sep: string, w2: string, post: string)
    requires AllSeparators(pre) && AllSeparators(mid) && AllSeparators(sep) && AllSeparators(post)
    requires IsNumberLiteral(num) && IsUnitWord(w1) && IsUnitWord(w2)
    ensures NumberTokens(pre + num + mid + w1 + sep + w2 + post) == [num]
  {
    var tail := mid + (w1 + (sep + (w2 + post)));
    Regroup(pre, num, mid, w1, sep, w2, post);
    WordNoDigits(w1);
    WordNoDigits(w2);
    NoDigitsConcat(w2, post);
    NoDigitsConcat(sep, w2 + post);
    NoDigitsConcat(w1, sep + (w2 + post));
    NoDigitsConcat(mid, w1 + (sep + (w2 + post)));
    assert tail[0] == (if mid == [] then w1[0] else mid[0]);
    NumberTokensSkip(pre, num + tail);
    NumberThenNoDigits(num, tail);
  }

  /** Regrouping a concatenation of seven pieces to the right. */
  lemma Regroup<T>(a: seq<T>, b: seq<T>, c: seq<T>, d: seq<T>, e: seq<T>, f: seq<T>, g: seq<T>)
    ensures a + b + c + d + e + f + g == a + (b + (c + (d + (e + (f + g)))))
  {
  }

  lemma WordNoDigits(w: string)
    requires IsUnitWord(w)
    ensures NoDigits(w)
  {
  }

  lemma NoDigitsConcat(a: string, b: string)
    requires NoDigits(a) && NoDigits(b)
    ensures NoDigits(a + b)
  {
    forall i | 0 <= i < |a + b|
      ensures !IsDigit((a + b)[i])
    {
      if i >= |a| {
        assert (a + b)[i] == b[i - |a|];
      }
    }
  }

  /** Two words after letter-free text give at least two word tokens. */
  lemma TwoWordTokens(lead: string, w1: string, sep: string, w2: string, post: string)
    requires NoUnitChars(lead) && AllSeparators(sep) && |sep| > 0 && IsUnitWord(w1) && IsUnitWord(w2)
    requires AllSeparators(post)
    ensures |WordTokens(lead + w1 + sep + w2 + post)| >= 2
  {
    var second := sep + (w2 + post);
    assert lead + w1 + sep + w2 + post == lead + (w1 + second);
    assert second[0] == sep[0];
    WordTokensSkip(lead, w1 + second);
    WordTokensCons(w1, second);
    WordTokensSkip(sep, w2 + post);
    WordTokensCons(w2, post);
  }

  /** A literal with no word around it fails on the unit count ("100"). */
  lemma NoWordFails(pre: string, num: string, post: string)
    requires AllSeparators(pre) && AllSeparators(post)
    requires IsNumberLiteral(num)
    ensures GetValueAndUnit(pre + num + post) == Failure(ValueError(NotOneUnit))
  {
    var s := pre + num + post;
    assert s == pre + (num + post);
    NumberTokensSkip(pre, num + post);
    NumberThenNoDigits(num, post);
    LiteralChars(num);
    NoUnitCharsAppend(pre, num, post);
    assert s == s + [];
    WordTokensSkip(s, []);
  }

  lemma SeparatorsAppend(mid: string, w: string, post: string)
    requires AllSeparators(mid) && AllSeparators(post) && IsUnitWord(w)
    ensures NoDigits(mid + w + post)
    ensures mid + w + post == [] || (mid + w + post)[0] != '.'
  {
  }

  lemma NoDigitsAppend(pre: string, w: string, mid: string)
    requires AllSeparators(pre) && AllSeparators(mid) && IsUnitWord(w)
    ensures NoDigits(pre + w + mid)
  {
  }

  lemma NoUnitCharsAppend(a: string, num: string, b: string)
    requires AllSeparators(a) && AllSeparators(b) && NoUnitChars(num)
    ensures NoUnitChars(a + num + b)
  {
  }

  /** A literal holds only digits and a point. */
  lemma LiteralChars(num: string)
    requires IsNumberLiteral(num)
    ensures NoUnitChars(num)
  {
    var k := |DigitRun(num)|;
    forall i | 0 <= i < |num|
      ensures !IsUnitChar(num[i])
    {
      if i < k {
        assert num[i] == DigitRun(num)[i];
      } else if i > k {
        assert num[i] == num[k + 1..][i - k - 1];
      }
    }
  }

  /** A literal followed by neither a digit nor a point is the first number token. */
  lemma NumberTokensCons(num: string, rest: string)
    requires IsNumberLiteral(num)
    requires rest == [] || (!IsDigit(rest[0]) && rest[0] != '.')
    ensures NumberTokens(num + rest) == [num] + NumberTokens(rest)
  {
    NumberMatchOf(num, rest);
    assert (num + rest)[|num|..] == rest;
  }

  /** A word followed by a non-letter is the first word token. */
  lemma WordTokensCons(w: string, rest: string)
    requires IsUnitWord(w)
    requires rest == [] || !IsUnitChar(rest[0])
    ensures WordTokens(w + rest) == [w] + WordTokens(rest)
  {
    LetterRunOf(w, rest);
    assert (w + rest)[|w|..] == rest;
  }
}

=== FILE: text.dfy ===
/** The pieces of Python's string library the library leans on: character
    classes, `str(int)`, `str.strip`, `str.split`, `str.join`,
    `str.capitalize` and `string.capwords`. Character classes are the ASCII
    part of Python's Unicode classes. */
module Text {

  // ---------------------------------------------------------------------------
  // Character classes
  // ---------------------------------------------------------------------------

  /** `\d` */
  predicate IsDigit(c: char) {
    '0' <= c <= '9'
  }

  /** `[^\d\W]`: a word character that is not a digit, i.e. a letter or `_`. */
  predicate IsUnitChar(c: char) {
    'a' <= c <= 'z' || 'A' <= c <= 'Z' || c == '_'
  }

  /** `str.isspace`: space, `\t` to `\r`, and the separators `\x1c` to `\x1f`. */
  predicate IsSpace(c: char) {
    c == ' ' || '\t' <= c <= '\r' || '\U{1C}' <= c <= '\U{1F}'
  }

  predicate AllDigits(s: string) {
    forall i :: 0 <= i < |s| ==> IsDigit(s[i])
  }

  predicate NoSpace(s: string) {
    forall i :: 0 <= i < |s| ==> !IsSpace(s[i])
  }

  /** What `str.split()` produces: a non-empty run of non-whitespace. */
  predicate IsWord(w: string) {
    |w| > 0 && NoSpace(w)
  }

  predicate AllWords(ws: seq<string>) {
    forall i :: 0 <= i < |ws| ==> IsWord(ws[i])
  }

  /** The characters of `s` that satisfy `p`, in order. */
  function Filter(p: char -> bool, s: string): (r: string)
    ensures |r| <= |s|
    ensures forall i :: 0 <= i < |r| ==> p(r[i])
  {
    if s == [] then [] else (if p(s[0]) then [s[0]] else []) + Filter(p, s[1..])
  }

  lemma {:induction false} FilterAppend(p: char -> bool, a: string, b: string)
    ensures Filter(p, a + b) == Filter(p, a) + Filter(p, b)
  {
    if a == [] {
      assert a + b == b;
    } else {
      assert (a + b)[0] == a[0];
      assert (a + b)[1..] == a[1..] + b;
      FilterAppend(p, a[1..], b);
    }
  }

  /** Flattens a list of strings. */
  function Concat(ss: seq<string>): (r: string)
    ensures |ss| == 1 ==> r == ss[0]
  {
    if ss == [] then [] else ss[0] + Concat(ss[1..])
  }

  // ---------------------------------------------------------------------------
  // Digit strings and str(int)
  // ---------------------------------------------------------------------------

  function DigitValue(c: char): nat
    requires IsDigit(c)
  {
    c as int - '0' as int
  }

  function DigitChar(d: nat): (c: char)
    requires d < 10
    ensures IsDigit(c) && DigitValue(c) == d
  {
    ('0' as int + d) as char
  }

  /** The number a string of decimal digits denotes (the empty string denotes 0). */
  function DigitsValue(ds: string): nat
    requires AllDigits(ds)
  {
    if ds == [] then 0 else DigitsValue(ds[..|ds| - 1]) * 10 + DigitValue(ds[|ds| - 1])
  }

  /** The decimal numeral of `n`, without leading zeros. */
  function NatToDigits(n: nat): (ds: string)
    ensures |ds| >= 1 && AllDigits(ds)
    ensures DigitsValue(ds) == n
    ensures ds[0] == '0' ==> n == 0
  {
    if n < 10 then
      [DigitChar(n)]
    else
      var prefix := NatToDigits(n / 10);
      var ds := prefix + [DigitChar(n % 10)];
      assert ds[..|ds| - 1] == prefix;
      ds
  }

  /** `str(i)` for a Python `int`. */
  function IntToString(i: int): (s: string)
    ensures |s| >= 1
    ensures s[0] == '-' <==> i < 0
    ensures i >= 0 ==> AllDigits(s) && DigitsValue(s) == i
    ensures i < 0 ==> AllDigits(s[1..]) && DigitsValue(s[1..]) == -i
  {
    if i < 0 then "-" + NatToDigits(-i) else NatToDigits(i)
  }

  function Zeros(k: nat): (z: string)
    ensures |z| == k && AllDigits(z)
  {
    seq(k, _ => '0')
  }

  /** Leading zeros do not change the value of a digit string. */
  lemma {:induction false} LeadingZeros(k: nat, ds: string)
    requires AllDigits(ds)
    ensures AllDigits(Zeros(k) + ds)
    ensures DigitsValue(Zeros(k) + ds) == DigitsValue(ds)
  {
    var s := Zeros(k) + ds;
    if ds == [] {
      assert s == Zeros(k);
      ZerosValue(k);
    } else {
      assert s[..|s| - 1] == Zeros(k) + ds[..|ds| - 1];
      LeadingZeros(k, ds[..|ds| - 1]);
    }
  }

  lemma {:induction false} ZerosValue(k: nat)
    ensures DigitsValue(Zeros(k)) == 0
  {
    if k > 0 {
      assert Zeros(k)[..k - 1] == Zeros(k - 1);
      ZerosValue(k - 1);
    }
  }

  // ---------------------------------------------------------------------------
  // str.join, str.split, str.strip
  // ---------------------------------------------------------------------------

  /** `sep.join(parts)` */
  function Join(parts: seq<string>, sep: string): string {
    if |parts| == 0 then ""
    else if |parts| == 1 then parts[0]
    else parts[0] + sep + Join(parts[1..], sep)
  }

  /** Two parts are joined by one separator. */
  lemma JoinTwo(a: string, b: string, sep: string)
    ensures Join([a, b], sep) == a + sep + b
  {
    assert [a, b][1..] == [b];
  }

  /** The longest prefix of `s` holding no whitespace. */
  function WordPrefix(s: string): (w: string)
    ensures |w| <= |s| && w == s[..|w|] && NoSpace(w)
    ensures |w| < |s| ==> IsSpace(s[|w|])
    ensures s != [] && !IsSpace(s[0]) ==> |w| > 0
  {
    if s == [] || IsSpace(s[0]) then [] else [s[0]] + WordPrefix(s[1..])
  }

  /** `s.split()`: the maximal runs of non-whitespace, in order. */
  function Split(s: string): (ws: seq<string>)
    ensures AllWords(ws)
    ensures Concat(ws) == Filter(c => !IsSpace(c), s)
    decreases |s|
  {
    if s == [] then []
    else if IsSpace(s[0]) then
      Split(s[1..])
    else
      var w := WordPrefix(s);
      var ws := [w] + Split(s[|w|..]);
      assert ws[1..] == Split(s[|w|..]);
      assert s == w + s[|w|..];
      FilterAppend(c => !IsSpace(c), w, s[|w|..]);
      NoSpaceFilter(w);
      ws
  }

  /** A space ends the word prefix, whatever follows it. */
  lemma {:induction false} WordPrefixBeforeSpace(a: string, rest: string)
    requires rest != [] && IsSpace(rest[0])
    ensures WordPrefix(a + rest) == WordPrefix(a)
  {
    if a == [] {
      assert a + rest == rest;
    } else if !IsSpace(a[0]) {
      assert (a + rest)[1..] == a[1..] + rest;
      WordPrefixBeforeSpace(a[1..], rest);
    }
  }

  /** Splitting two texts joined by a space gives the words of the first,
      then the words of the second. */
  lemma {:induction false} SplitSpaced(a: string, b: string)
    ensures Split(a + " " + b) == Split(a) + Split(b)
    decreases |a|
  {
    if a == [] {
      assert (a + " " + b)[1..] == b;
    } else if IsSpace(a[0]) {
      SplitSpaced(a[1..], b);
      SplitSpacedAfterSpace(a, b);
    } else {
      var w := WordPrefix(a);
      SplitSpaced(a[|w|..], b);
      SplitSpacedAfterWord(a, b);
    }
  }

  lemma SplitSpacedAfterSpace(a: string, b: string)
    requires a != [] && IsSpace(a[0])
    requires Split(a[1..] + " " + b) == Split(a[1..]) + Split(b)
    ensures Split(a + " " + b) == Split(a) + Split(b)
  {
    var t := " " + b;
    DropConcat(a, t, 1);
    Associate(a, " ", b);
    Associate(a[1..], " ", b);
    var s := a + t;
    assert s[0] == a[0];
    assert Split(s) == Split(s[1..]);
  }

  lemma SplitSpacedAfterWord(a: string, b: string)
    requires a != [] && !IsSpace(a[0])
    requires Split(a[|WordPrefix(a)|..] + " " + b) == Split(a[|WordPrefix(a)|..]) + Split(b)
    ensures Split(a + " " + b) == Split(a) + Split(b)
  {
    var t := " " + b;
    var w := WordPrefix(a);
    WordPrefixBeforeSpace(a, t);
    DropConcat(a, t, |w|);
    Associate(a, " ", b);
    Associate(a[|w|..], " ", b);
    var s := a + t;
    assert s[0] == a[0];
    assert Split(s) == [w] + Split(s[|w|..]);
    assert Split(a) == [w] + Split(a[|w|..]);
    Associate([w], Split(a[|w|..]), Split(b));
  }

  /** Dropping a prefix of the first part of a concatenation. */
  lemma DropConcat<T>(a: seq<T>, b: seq<T>, k: nat)
    requires k <= |a|
    ensures (a + b)[k..] == a[k..] + b
  {
  }

  lemma Associate<T>(a: seq<T>, b: seq<T>, c: seq<T>)
    ensures a + b + c == a + (b + c)
  {
  }

  /** The words of each text, one text after the other. */
  function SplitEach(ps: seq<string>): (ws: seq<string>)
    ensures AllWords(ws)
  {
    if ps == [] then [] else Split(ps[0]) + SplitEach(ps[1..])
  }

  /** Splitting texts joined by single spaces gives the words of each text, in order. */
  lemma {:induction false} SplitJoinSpaced(ps: seq<string>)
    ensures Split(Join(ps, " ")) == SplitEach(ps)
  {
    if |ps| == 1 {
      assert ps[1..] == [];
      assert Split(ps[0]) + [] == Split(ps[0]);
    } else if |ps| > 1 {
      SplitJoinSpaced(ps[1..]);
      SplitSpaced(ps[0], Join(ps[1..], " "));
    }
  }

  lemma {:induction false} NoSpaceFilter(w: string)
    requires NoSpace(w)
    ensures Filter(c => !IsSpace(c), w) == w
  {
    if w != [] {
      NoSpaceFilter(w[1..]);
    }
  }

  function StripLeft(s: string): (r: string)
    ensures |r| <= |s| && r == s[|s| - |r|..]
    ensures r != [] ==> !IsSpace(r[0])
    ensures s != [] && !IsSpace(s[0]) ==> r == s
  {
    if s != [] && IsSpace(s[0]) then StripLeft(s[1..]) else s
  }

  function StripRight(s: string): (r: string)
    ensures |r| <= |s| && r == s[..|r|]
    ensures r != [] ==> !IsSpace(r[|r| - 1])
    ensures s != [] && !IsSpace(s[|s| - 1]) ==> r == s
  {
    if s != [] && IsSpace(s[|s| - 1]) then StripRight(s[..|s| - 1]) else s
  }

  /** `s.strip()` */
  function Strip(s: string): (r: string)
    ensures r != [] ==> !IsSpace(r[0]) && !IsSpace(r[|r| - 1])
  {
    StripRight(StripLeft(s))
  }

  /** A string `Strip` leaves alone: empty, or no whitespace at either end. */
  predicate Trimmed(s: string) {
    s == [] || (!IsSpace(s[0]) && !IsSpace(s[|s| - 1]))
  }

  lemma StripTrimmed(s: string)
    requires Trimmed(s)
    ensures Strip(s) == s
  {
  }

  // ---------------------------------------------------------------------------
  // str.capitalize and string.capwords
  // ---------------------------------------------------------------------------

  function Upper(c: char): char {
    if 'a' <= c <= 'z' then (c as int - 32) as char else c
  }

  function Lower(c: char): char {
    if 'A' <= c <= 'Z' then (c as int + 32) as char else c
  }

  function LowerAll(s: string): (r: string)
    ensures |r| == |s|
    ensures forall i :: 0 <= i < |s| ==> r[i] == Lower(s[i])
  {
    seq(|s|, i requires 0 <= i < |s| => Lower(s[i]))
  }

  /** `w.capitalize()`: first character upper case, the rest lower case. */
  function Capitalize(w: string): string {
    if w == [] then [] else [Upper(w[0])] + LowerAll(w[1..])
  }

  function CapitalizeAll(ws: seq<string>): (r: seq<string>)
    ensures |r| == |ws|
    ensures forall i :: 0 <= i < |ws| ==> r[i] == Capitalize(ws[i])
  {
    seq(|ws|, i requires 0 <= i < |ws| => Capitalize(ws[i]))
  }

  /** `string.capwords(s)`: split on whitespace, capitalize each word, join with one space. */
  function CapWords(s: string): string {
    Join(CapitalizeAll(Split(s)), " ")
  }

  // ---------------------------------------------------------------------------
  // Lemmas
  // ---------------------------------------------------------------------------

  /** Capitalizing a word keeps it a word of the same length. */
  lemma CapitalizeWord(w: string)
    requires IsWord(w)
    ensures IsWord(Capitalize(w)) && |Capitalize(w)| == |w|
  {
    var r := Capitalize(w);
    forall i | 0 <= i < |r|
      ensures !IsSpace(r[i])
    {
      if i > 0 {
        assert r[i] == Lower(w[i]);
      }
    }
  }

  lemma CapitalizeIdempotent(w: string)
    ensures Capitalize(Capitalize(w)) == Capitalize(w)
  {
  }

  /** The prefix `WordPrefix` takes stops exactly at the first whitespace. */
  lemma {:induction false} WordPrefixOf(w: string, rest: string)
    requires NoSpace(w)
    requires rest == [] || IsSpace(rest[0])
    ensures WordPrefix(w + rest) == w
  {
    if w != [] {
      assert (w + rest)[1..] == w[1..] + rest;
      WordPrefixOf(w[1..], rest);
    }
  }

  /** `str.split` undoes a single-space `join` of words. */
  lemma {:induction false} SplitJoin(ws: seq<string>)
    requires AllWords(ws)
    ensures Split(Join(ws, " ")) == ws
  {
    if |ws| == 1 {
      WordPrefixOf(ws[0], []);
      assert ws[0] + [] == ws[0];
      assert Join(ws, " ")[|ws[0]|..] == [];
    } else if |ws| > 1 {
      var w := ws[0];
      var tail := Join(ws[1..], " ");
      var s := Join(ws, " ");
      assert s == w + (" " + tail);
      WordPrefixOf(w, " " + tail);
      assert s[|w|..] == " " + tail;
      assert (" " + tail)[1..] == tail;
      SplitJoin(ws[1..]);
    }
  }

  /** A single-space join of words starts and ends with a non-whitespace character. */
  lemma {:induction false} JoinTrimmed(ws: seq<string>)
    requires AllWords(ws)
    ensures Trimmed(Join(ws, " "))
    ensures |ws| > 0 ==> Join(ws, " ") != []
  {
    if |ws| > 1 {
      JoinTrimmed(ws[1..]);
      var tail := Join(ws[1..], " ");
      assert Join(ws, " ") == ws[0] + " " + tail;
    }
  }

  /** The output of `capwords` is made of words joined by one space. */
  lemma CapWordsShape(s: string)
    ensures AllWords(CapitalizeAll(Split(s)))
    ensures Trimmed(CapWords(s))
  {
    var ws := Split(s);
    var cs := CapitalizeAll(ws);
    forall i | 0 <= i < |cs|
      ensures IsWord(cs[i])
    {
      CapitalizeWord(ws[i]);
    }
    JoinTrimmed(cs);
  }

  /** Capitalizing words that are already capitalized changes nothing. */
  lemma CapitalizeAllFixed(cs: seq<string>)
    requires forall i :: 0 <= i < |cs| ==> Capitalize(cs[i]) == cs[i]
    ensures CapitalizeAll(cs) == cs
  {
  }

  /** Capitalizing a list of words twice is the same as doing it once. */
  lemma CapitalizeAllIdempotent(ws: seq<string>)
    ensures CapitalizeAll(CapitalizeAll(ws)) == CapitalizeAll(ws)
  {
    var cs := CapitalizeAll(ws);
    forall i | 0 <= i < |cs|
      ensures Capitalize(cs[i]) == cs[i]
    {
      CapitalizeIdempotent(ws[i]);
    }
    CapitalizeAllFixed(cs);
  }

  /** Title-casing a stripped name twice is the same as doing it once. */
  lemma CapWordsStripIdempotent(s: string)
    ensures CapWords(Strip(CapWords(Strip(s)))) == CapWords(Strip(s))
  {
    var ws := Split(Strip(s));
    CapWordsShape(Strip(s));
    CapWordsOfWords(CapitalizeAll(ws));
    CapitalizeAllIdempotent(ws);
  }

  /** Words already separated by single spaces keep their separation and
      are capitalized one by one ("back squat" becomes "Back Squat"). */
  lemma CapWordsOfWords(ws: seq<string>)
    requires AllWords(ws)
    ensures CapWords(Strip(Join(ws, " "))) == Join(CapitalizeAll(ws), " ")
  {
    JoinTrimmed(ws);
    StripTrimmed(Join(ws, " "));
    SplitJoin(ws);
  }
}

=== FILE: units.dfy ===
/** The unit catalogue of `measurement.py`: the two enumerations of unit
    symbols, the table of SI factors, and the `Unit` record that converts
    to and from SI. Factors are exact reals. */
module Units {
  import opened Wrappers
  import opened Errors

  /** Which enumeration a unit belongs to, and which measurement class it serves. */
  datatype Category = Distance | Weight

  /** The values of `DistanceUnit`. */
  const DistanceUnits: set<string> := {"km", "m", "cm", "mile", "yard", "ft", "in"}

  /** The values of `WeightUnit`. */
  const WeightUnits: set<string> := {"kg", "lb", "pood"}

  /** `UNIT_CONVERSIONS`: how many SI units (metres, kilograms) one unit is. */
  const Conversions: map<string, real> := map[
    "km" := 1000.0,
    "m" := 1.0,
    "cm" := 0.01,
    "mile" := 1609.344,
    "yard" := 0.9144,
    "ft" := 0.3048,
    "in" := 0.0254,
    "kg" := 1.0,
    "lb" := 0.45359237,
    "pood" := 16.0
  ]

  /** `u in DistanceUnit` / `u in WeightUnit`: exact, case-sensitive membership
      in the enumeration's values. */
  function UnitsOf(c: Category): set<string> {
    match c
    case Distance => DistanceUnits
    case Weight => WeightUnits
  }

  /** A symbol the tokenizer accepts: a member of either enumeration. */
  predicate IsKnownUnit(u: string) {
    u in DistanceUnits || u in WeightUnits
  }

  /** The unit the SI value of a category is expressed in (`si_unit`). */
  function SiUnit(c: Category): string {
    match c
    case Distance => "m"
    case Weight => "kg"
  }

  /** The SI factor of a known symbol (`UNIT_CONVERSIONS[unit]`). */
  function Factor(u: string): (f: real)
    requires IsKnownUnit(u)
    ensures f > 0.0
  {
    Conversions[u]
  }

  /** The shape of the catalogue: ten symbols, none in both enumerations, every
      one with a positive factor, and each SI unit has factor one. */
  lemma CatalogueShape()
    ensures DistanceUnits !! WeightUnits
    ensures |DistanceUnits| == 7 && |WeightUnits| == 3
    ensures Conversions.Keys == DistanceUnits + WeightUnits
    ensures forall u :: u in Conversions ==> Conversions[u] > 0.0
    ensures forall c :: SiUnit(c) in UnitsOf(c) && Factor(SiUnit(c)) == 1.0
  {
    CategoriesDisjoint();
    CatalogueSizes();
    ConversionKeys();
    FactorsPositive();
  }

  lemma CategoriesDisjoint()
    ensures DistanceUnits !! WeightUnits
  {
  }

  lemma CatalogueSizes()
    ensures |DistanceUnits| == 7 && |WeightUnits| == 3
  {
  }

  lemma ConversionKeys()
    ensures Conversions.Keys == DistanceUnits + WeightUnits
  {
  }

  lemma FactorsPositive()
    ensures forall u :: u in Conversions ==> Conversions[u] > 0.0
  {
  }

  /** A symbol determines its category. */
  lemma CategoryUnique(u: string, c1: Category, c2: Category)
    requires u in UnitsOf(c1) && u in UnitsOf(c2)
    ensures c1 == c2
  {
    CategoriesDisjoint();
  }

  /** The dataclass `Unit(name, in_si)`. */
  datatype Unit = Unit(name: string, inSi: real) {

    /** `to_si`: a value in this unit expressed in SI units. The SI unit
        itself (factor one) leaves the value unchanged, and a positive factor
        keeps the sign; `ConversionRoundTrip` shows `from_si` undoes it. */
    function ToSi(v: real): (r: real)
      ensures inSi == 1.0 ==> r == v
      ensures inSi > 0.0 ==> (r > 0.0 <==> v > 0.0) && (r == 0.0 <==> v == 0.0)
    {
      if inSi > 0.0 then PositiveScale(v, inSi); v * inSi else v * inSi
    }

    /** `from_si`: an SI value expressed in this unit; Python's float division
        raises `ZeroDivisionError` for a zero factor. */
    function FromSi(v: real): (r: Result<real, Error>)
      ensures r.Failure? <==> inSi == 0.0
      ensures r.Failure? ==> r.error == ZeroDivisionError
      ensures r.Success? ==> r.value * inSi == v
    {
      if inSi == 0.0 then Failure(ZeroDivisionError) else Success(v / inSi)
    }
  }

  lemma PositiveScale(x: real, f: real)
    requires f > 0.0
    ensures x * f > 0.0 <==> x > 0.0
    ensures x * f == 0.0 <==> x == 0.0
  {
  }

  /** The catalogue entry of a known symbol (`Unit(name=str(unit), in_si=UNIT_CONVERSIONS[unit])`). */
  function UnitFor(u: string): (r: Unit)
    requires IsKnownUnit(u)
    ensures r.name == u && r.inSi == Factor(u) && r.inSi > 0.0
  {
    Unit(u, Factor(u))
  }

  /** `from_si` undoes `to_si` for every unit with a non-zero factor, and the
      other way round. */
  lemma ConversionRoundTrip(unit: Unit, v: real)
    requires unit.inSi != 0.0
    ensures unit.FromSi(unit.ToSi(v)) == Success(v)
    ensures unit.ToSi(unit.FromSi(v).value) == v
  {
    var k := unit.inSi;
    assert (v * k) / k == v * k * (1.0 / k);
    assert k * (1.0 / k) == 1.0;
    assert (v * k) / k == v;
    assert unit.ToSi(v) == v * k;
    assert unit.FromSi(v * k) == Success((v * k) / k);
    assert unit.FromSi(unit.ToSi(v)) == Success(v);
  }

  /** The values the test suite checks for `Unit(name="test", in_si=4)`. */
  lemma ConversionExamples()
    ensures Unit("test", 4.0).ToSi(1.0) == 4.0
    ensures Unit("test", 4.0).ToSi(1.3) == 5.2
    ensures Unit("test", 4.0).FromSi(1.0) == Success(0.25)
    ensures Unit("test", 4.0).FromSi(4.4) == Success(1.1)
  {
  }
}

=== FILE: wrappers.dfy ===
/** The failure-compatible wrappers the model uses in place of Python's `None`
    and its exceptions, and the exceptions the library raises. */
module Wrappers {

  /** An optional value: `None` stands for Python's `None`. */
  datatype Option<+T> = None | Some(value: T)

  /** The outcome of an operation that may raise: `Failure` carries the exception. */
  datatype Result<+R, +E> = Success(value: R) | Failure(error: E) {

    predicate IsFailure() {
      Failure?
    }

    function PropagateFailure<U>(): Result<U, E>
      requires Failure?
    {
      Failure(error)
    }

    function Extract(): R
      requires Success?
    {
      value
    }
  }
}

module Errors {

  /** The library raises a bare `ValueError` in four places and tells them apart
      only by its message; the reason names the message. */
  datatype Reason =
    | NotOneNumber              // "Input text needs to contain exactly one number!"
    | NotOneUnit                // "Input text needs to contain exactly one unit!"
    | NoRepsDurationOrDistance  // "Reps, duration or distance needs to be set."
    | FieldsOnSubExercise       // "Weight, distance, height and duration can only be set for the entire complex."

  /** The exceptions the library raises. `TypeError` is what `timedelta(seconds=None)`
      raises when the duration parser rejects its text. */
  datatype Error =
    | ValueError(reason: Reason)
    | UnknownUnitError(unit: string)
    | KeyError(key: string)
    | TypeError
    | ZeroDivisionError
}
